=== FILE: README.md ===
# Code execution sandbox: request validation, execution handler, code metrics, client listeners and history filter

This project models the deterministic core of a web service that runs short
Python or JavaScript programs in throw-away containers. It writes that core as
pure Dafny functions and proves properties of them. The model covers five parts:

- **Request validation** (`backend/middleware/validator.js`). The check chains on
  the `language` and `code` fields of a request body and the six
  case-insensitive blocked patterns. Then the `validate` middleware, which
  answers 400 with the error list or passes the request on. Modules
  `Languages`, `BlockedPatterns` and `Validator`.
- **The `/code/run` handler** (`backend/routes/code.js`). The image and command
  table, the host limits of every container, the output sanitizer, the
  accumulation and trimming of the output, and the 408/500 status mapping. It
  also covers the calls made on the engine and the timer, including the
  cleanup after a failure. The engine, its log stream and the timer are
  replaced by a `Script` that says how each awaited step turns out. The
  handler becomes a pure function from a script to an answer (`Answer`) and
  a call trace (`Trace`). Modules `ContainerConfig`, `Sanitizer` and
  `RunHandler`.
- **Code metrics** (`backend/services/codeAnalysis.js`). The complexity score
  (a left fold from 1 over eight keywords, each counted as whole-word,
  case-sensitive global matches), the line count and the character count.
  Module `CodeAnalysis`.
- **Client listener registry** (`frontend/src/services/websocket.js`).
  `subscribe`, `unsubscribe` and the dispatch of a parsed message, over a map
  from message type to a list of callbacks. Module `Listeners`.
- **History filter** (`frontend/src/components/ExecutionHistory.jsx`). The
  order-preserving substring filter and the row count given to the
  pagination control. Module `HistoryFilter`.

Two modules hold the JavaScript primitives the others use. `JsText` holds
the `\s`/`trim` whitespace set, ASCII case folding, `\b` word characters,
`includes` and `trim`. `Seqs` holds the order-preserving `filter` and
flattening.

The regular expressions are modelled twice. `MatchesAt` is a greedy scanner.
`RegexMatchAt` states that *some* whitespace run is followed by the rest of
the pattern. The two are proved equal. A global `match` is modelled as the
engine scans: resume after a match, otherwise advance by one. It is proved
equal to the number of whole-word positions, because such occurrences of a
word never overlap.

## Model

| member | source | states |
|---|---|---|
| `Validator.ValidateCode` | backend/middleware/validator.js:6-43 | The error list is empty exactly when the language is "python" or "javascript" and the code is a non-empty string of at most 1000 characters that no blocked regular expression matches. Otherwise its first entry is the message of the first failing check: the language checks (required, string, supported) come before the code checks (required, string, not empty, length, harmful). |
| `Validator.Validate` | backend/middleware/validator.js:45-54 | The request is passed on exactly when it is acceptable. Otherwise the answer is status 400 with `success` false and the whole, non-empty error list. |
| `Validator.AcceptedRequestShape` | backend/middleware/validator.js:6-43 | A request that passes carries a supported language name and a code string of 1 to 1000 characters that the scanner finds harmless. |
| `Validator.LengthLimitBoundary` | backend/middleware/validator.js:26-27 | The length limit is inclusive: 1000 characters pass and 1001 are refused with the length message. |
| `Validator.RunOfXIsHarmless` | backend/middleware/validator.js:28-41 | No blocked pattern matches a run of `x` of any length. |
| `BlockedPatterns.MatchesAt` | backend/middleware/validator.js:30-35 | Every pattern consumes at least one character, so a match only starts before the end of the text. With `MatchesAtIffRegex` the scanner is the regular expression's own meaning. |
| `BlockedPatterns.Test` | backend/middleware/validator.js:30-38 | `pattern.test(code)` holds exactly when the pattern's regular expression matches starting at some character of the code. |
| `BlockedPatterns.RegexMatchesEverywhere` | backend/middleware/validator.js:30-35 | At every index of a text, its end included, the greedy scanner matches exactly when the regular expression does. |
| `BlockedPatterns.IsHarmful` | backend/middleware/validator.js:38-40 | `some` over the six patterns never refuses the empty code. With `HarmfulIffRegex` the verdict is the regular expressions' verdict. |
| `BlockedPatterns.SkipWhitespace` | backend/middleware/validator.js:31 | The index past a whitespace run is within the text. Everything skipped is whitespace, and the character after it is not. |
| `BlockedPatterns.MatchesAtIffRegex` | backend/middleware/validator.js:30-35 | At every index the greedy scanner matches a pattern exactly when the regular expression does, for any choice of whitespace run. |
| `BlockedPatterns.HarmfulIffRegex` | backend/middleware/validator.js:28-40 | The validator's harmful verdict is exactly "some listed regular expression matches somewhere". |
| `BlockedPatterns.HarmfulIgnoresCase` | backend/middleware/validator.js:30-35 | Changing the case of ASCII letters never changes the verdict, because every pattern has the `i` flag. |
| `BlockedPatterns.EnvExampleIsHarmful` | backend/tests/validator.test.js:76-96 | `process.env.SECRET` is refused. |
| `BlockedPatterns.RequireExampleIsHarmful` | backend/tests/validator.test.js:76-96 | `require("fs")` is refused. |
| `BlockedPatterns.ImportExampleIsHarmful` | backend/tests/validator.test.js:76-96 | `import os` is refused. |
| `BlockedPatterns.OpenExampleIsHarmful` | backend/tests/validator.test.js:76-96 | `open("/etc/passwd")` is refused. |
| `BlockedPatterns.EvalExampleIsHarmful` | backend/tests/validator.test.js:76-96 | `eval("alert(1)")` is refused. |
| `BlockedPatterns.ExecExampleIsHarmful` | backend/tests/validator.test.js:76-96 | `exec("rm -rf /")` is refused. |
| `BlockedPatterns.ShoutedImportIsHarmful` | backend/middleware/validator.js:32 | An upper-case import, with a tab before a module name that merely starts with `os`, is refused as well: the import pattern checks no word end. |
| `Languages.FromName` | backend/middleware/validator.js:13 | A supported name maps to the language whose name it is. |
| `Languages.NameRoundTrip` | backend/middleware/validator.js:13 | Every language's name is supported and maps back to that language. |
| `ContainerConfig.Options` | backend/routes/code.js:53-64 | The create request runs the language's interpreter with its run-the-next-argument flag, with the code verbatim as the last of three arguments. It uses the language's image and no terminal. It always carries auto-remove, 104857600 bytes of memory, 10^9 nano-CPUs and network mode "none". |
| `ContainerConfig.LanguageOfImage` | backend/routes/code.js:47-50 | Each of the two images is the image of the language read back from it. |
| `ContainerConfig.OptionsRoundTrip` | backend/routes/code.js:47-56 | The language and the code can be read back from the create request. |
| `ContainerConfig.ImageMatchesInterpreter` | backend/routes/code.js:47-56 | The Python image runs `python` and the Node image runs `node`. |
| `Sanitizer.Sanitize` | backend/routes/code.js:88 | The sanitized chunk is no longer than the input and contains no character in U+0000-U+0008 or U+000B-U+001F. |
| `Sanitizer.SanitizeCounts` | backend/routes/code.js:88 | Every character outside those ranges keeps its number of occurrences; every character inside them is gone. |
| `Sanitizer.SanitizeChar` | backend/routes/code.js:88 | A single character is deleted exactly when it is in the stripped ranges. |
| `Sanitizer.SanitizeKeepsClean` | backend/routes/code.js:88 | Text without stripped characters passes unchanged. |
| `Sanitizer.SanitizeAround` | backend/routes/code.js:88 | A character inside a text is deleted or kept on its own, whatever surrounds it. |
| `Sanitizer.CarriageReturnDropped` | backend/routes/code.js:88 | Tab and line feed survive and a carriage return is dropped, so CR LF reaches the client as LF. |
| `Sanitizer.SanitizeAppend` | backend/routes/code.js:85-89 | Sanitizing distributes over concatenation. |
| `Sanitizer.SanitizeIdempotent` | backend/routes/code.js:88 | Sanitizing twice is sanitizing once. |
| `Sanitizer.Accumulate` | backend/routes/code.js:81-89 | The output buffer, built by sanitizing each chunk as it arrives and appending it, is the sanitized whole stream, however the stream was cut into chunks. |
| `JsText.Trim` | backend/routes/code.js:99 | The result is the input less a whitespace-only prefix and a whitespace-only suffix, with no whitespace at either end. |
| `JsText.TrimUnique` | backend/routes/code.js:99 | Any such split of the input has the trim as its middle, so the contract of `Trim` determines it. |
| `JsText.TrimIdempotent` | backend/routes/code.js:99 | Trimming twice is trimming once. |
| `JsText.Includes` | backend/routes/code.js:115 | `includes`: a text that includes another is at least as long as it. With `IncludesIffOccurs` it holds exactly when the other occurs at some index. |
| `JsText.IncludesIffOccurs` | backend/routes/code.js:115 | `includes` holds exactly when the text occurs at some index. |
| `RunHandler.StatusFor` | backend/routes/code.js:115 | The status is 408 exactly when the message contains "timed out", and 500 otherwise. |
| `RunHandler.TimeoutMessageIs408` | backend/routes/code.js:67-71 | The timer's own message "Code execution timed out" maps to 408. |
| `RunHandler.Answer` | backend/routes/code.js:52-120 | The answer is a success exactly when create, start and the log request succeed and the stream ends before the deadline. A success carries the trim of the sanitized concatenation of all chunks. A failure carries the message of the first failing step, in the order the handler awaits them, with status 408 or 500 by that message. |
| `RunHandler.TimeoutAnswers408` | backend/routes/code.js:66-120 | A deadline that fires before the stream ends always answers 408 with the timer's message. |
| `RunHandler.PrintedLineAnswered` | backend/routes/code.js:81-100 | When the log stream's content, once sanitized, is one trimmed line followed by a line feed, the success answer carries exactly that line, however the stream was cut into chunks. |
| `RunHandler.Cleanup` | backend/routes/code.js:106-113 | The cleanup starts with a stop. It issues one more call, a forced removal, exactly when the stop succeeds; a failing stop is the only call. |
| `RunHandler.Trace` | backend/routes/code.js:52-113 | The first call creates the container with the given options; no call is made twice, and there are at most seven. Once the container exists, the next calls arm the 5000 ms timer and start the container. The log is requested exactly when create and start succeed. A run that reaches the end of the stream makes exactly create, arm the timer, start, request the log, clear the timer. |
| `RunHandler.Handle` | backend/routes/code.js:44-120 | The answer is a success exactly when every step succeeds and the stream ends before the deadline. The first call creates a container from the language's image whose command is the language's interpreter with the code verbatim as its last argument. |
| `RunHandler.CreatesOnce` | backend/routes/code.js:52-64 | The first call creates the container with the given options and no later call creates another. Nothing else is called exactly when creation fails. |
| `RunHandler.CleanupOrder` | backend/routes/code.js:105-113 | A stop is issued exactly on a failure after the container exists. A forced removal is issued exactly when that stop succeeds, and the two are the last calls, in that order. A success issues neither and relies on auto-removal. Removal is always forced. |
| `RunHandler.TimerLifecycle` | backend/routes/code.js:66-104 | The timer is armed exactly when the container was created. It is cleared exactly when the race was entered, on success, stream error and deadline alike. |
| `RunHandler.CleanupFailuresInvisible` | backend/routes/code.js:106-119 | The outcome of stop and remove never changes the answer. |
| `RunHandler.Serve` | backend/routes/code.js:43 | The handler answers with the validator's 400 and makes no engine call exactly when the validator refuses. An accepted request is answered as the handler answers its script, with a container created for its own language and code. |
| `CodeAnalysis.GlobalMatches` | backend/services/codeAnalysis.js:28-29 | The number of global matches from an index is at most the number of characters left, and 0 past the end. |
| `CodeAnalysis.GlobalMatchesCountsOccurrences` | backend/services/codeAnalysis.js:28-29 | For a keyword made of word characters, the number of global `\b<kw>\b` matches is the number of positions where it occurs as a whole word. |
| `CodeAnalysis.Score` | backend/services/codeAnalysis.js:27-30 | The fold starts at 1 and never goes below it; with no keywords it stays 1. |
| `CodeAnalysis.ScoreIsTotal` | backend/services/codeAnalysis.js:27-30 | For any list of word keywords, the fold from 1 is 1 plus the number of whole-word occurrences of all the keywords. |
| `CodeAnalysis.ScoreIsOneIffNoKeyword` | backend/services/codeAnalysis.js:27-30 | For any list of word keywords, the fold from 1 is at least 1. It is exactly 1 when none of them occurs anywhere as a whole word. |
| `CodeAnalysis.Complexity` | backend/services/codeAnalysis.js:20-31 | The complexity is 1 plus the number of whole-word, case-sensitive occurrences of the eight keywords. So it is at least 1, and exactly 1 when none of them occurs. |
| `CodeAnalysis.PrecededNotCounted` | backend/services/codeAnalysis.js:28 | A keyword directly after a word character is not counted. |
| `CodeAnalysis.FollowedNotCounted` | backend/services/codeAnalysis.js:28 | A keyword directly before a word character is not counted. |
| `CodeAnalysis.ElifHasNoIf` | backend/services/codeAnalysis.js:28 | `elif` contains no counted `if`. |
| `CodeAnalysis.ForEachHasNoFor` | backend/services/codeAnalysis.js:28 | `forEach` contains no counted `for`. |
| `CodeAnalysis.UpperCaseNotCounted` | backend/services/codeAnalysis.js:28 | Matching is case-sensitive: `IF` is not `if`. |
| `CodeAnalysis.ComplexityOfJoin` | backend/services/codeAnalysis.js:27-30 | Joining two texts with a non-word separator gives complexity(a) + complexity(b) - 1. |
| `CodeAnalysis.SplitLines` | backend/services/codeAnalysis.js:4 | Splitting on line feeds gives at least one piece, and no piece contains a line feed. |
| `CodeAnalysis.JoinSplitLines` | backend/services/codeAnalysis.js:4 | Joining the pieces with line feeds gives the text back. |
| `CodeAnalysis.SplitJoinLines` | backend/services/codeAnalysis.js:4 | Splitting the join of pieces without line feeds gives those pieces back. |
| `CodeAnalysis.SplitLinesCount` | backend/services/codeAnalysis.js:4 | There is one piece more than there are line feeds. |
| `CodeAnalysis.LineCount` | backend/services/codeAnalysis.js:4 | The line count is at least 1, even for empty code, and equals the number of line feeds plus 1. |
| `CodeAnalysis.CharacterCount` | backend/services/codeAnalysis.js:5 | The length in UTF-16 code units lies between the number of characters and twice that. It equals the number of characters exactly when no character is outside the Basic Multilingual Plane. |
| `CodeAnalysis.CharacterCountAppend` | backend/services/codeAnalysis.js:5 | The character count adds up over concatenation. |
| `CodeAnalysis.Analyze` | backend/services/codeAnalysis.js:1-8 | Every metric is defined for any code, the empty code included. The complexity is 1 plus the number of keyword occurrences, the line count is the number of line feeds plus 1, and the character count is the UTF-16 length, between the number of characters and twice that. |
| `Listeners.Subscribe` | frontend/src/services/websocket.js:22-27 | The type's list becomes its old list, or none, followed by the callback. The type gains an entry if it had none, and every other type's list is unchanged. |
| `Listeners.Unsubscribe` | frontend/src/services/websocket.js:29-34 | The map keeps its keys, and a type without an entry leaves the map unchanged. Other types' lists are untouched. The type's list no longer holds the callback and is no longer than before. |
| `Listeners.UnsubscribeCounts` | frontend/src/services/websocket.js:29-34 | Every registration of the callback is removed, and every other callback keeps its number of registrations. |
| `Listeners.UnsubscribeKeepsOrder` | frontend/src/services/websocket.js:29-34 | The remaining callbacks keep their subscription order: a callback subscribed last stays last, unless it is the callback removed, in which case it is gone as well. |
| `Listeners.Deliver` | frontend/src/services/websocket.js:14 | `forEach` calls the callbacks in order, each with the message, and stops after the first that throws. An exception escapes exactly when some callback throws, and then the last call is the first throwing callback. Without one, every callback is called. |
| `Listeners.Dispatch` | frontend/src/services/websocket.js:11-15 | A message calls its type's callbacks, in subscription order, each with the message, up to and including the first that throws: a throwing callback is the last one called, and an exception escapes exactly when some callback throws. When none throws, it calls all of them. A type without an entry calls nothing. |
| `Listeners.DispatchDependsOnListeners` | frontend/src/services/websocket.js:11-15 | Two registries with the same list for a message's type dispatch that message identically. |
| `Listeners.SubscribeTwice` | frontend/src/services/websocket.js:22-27 | Subscribing a callback twice registers it twice, and a message then calls it twice when no callback throws. |
| `Listeners.SubscribeUnsubscribe` | frontend/src/services/websocket.js:22-34 | Subscribing a callback new to the type and then unsubscribing it leaves the dispatch of every message unchanged. |
| `HistoryFilter.FilterHistory` | frontend/src/components/ExecutionHistory.jsx:21-24 | The result is no longer than the history and holds only history entries whose code or output contains the filter. It keeps every entry that does. |
| `HistoryFilter.FilterHistoryAppend` | frontend/src/components/ExecutionHistory.jsx:21-24 | Order is kept: filtering two parts separately and joining them equals filtering the whole. |
| `HistoryFilter.FilterHistoryCounts` | frontend/src/components/ExecutionHistory.jsx:21-24 | A matching entry appears as often as in the history, and a non-matching one not at all. |
| `HistoryFilter.EmptyFilterKeepsAll` | frontend/src/components/ExecutionHistory.jsx:21-24 | The empty filter shows the whole history. |
| `HistoryFilter.FilterHistoryIdempotent` | frontend/src/components/ExecutionHistory.jsx:21-24 | Filtering twice is filtering once. |
| `HistoryFilter.LongerFilterNarrows` | frontend/src/components/ExecutionHistory.jsx:21-24 | Everything a longer filter shows, a filter it contains shows as well. |
| `JsText.IncludesTransitive` | frontend/src/components/ExecutionHistory.jsx:22-23 | A text that includes `t` includes everything `t` includes. |
| `HistoryFilter.PaginationCount` | frontend/src/components/ExecutionHistory.jsx:51 | The count is the number of positions of the history whose entry matches the filter. So it is at most the history's length, and equals it exactly when every entry matches. |

## Left out

- The container engine, its log stream, `setTimeout` and the promise race are not executed or interleaved. A `Script` fixes how each awaited step turns out and how the race settles; concurrency is not modelled.
- A deadline that fires while `start` or the log request is still pending is not modelled. The timer can only win the race against the stream. What the late rejection of a timer left armed after a failing `start` or log request does to the process is outside the model.
- The UTF-8 decoding of log chunks is not modelled; chunks are sequences of characters. A multi-byte character split across two chunks is a decoding detail.
- The console logging of cleanup errors is not modelled: it has no effect on the answer.
- Validator.ValidateCode: express-validator's bookkeeping is not modelled. The model gives one error per failing field, and only the emptiness of the list and its first entry are claimed. The library may append further messages for the same field.
- Validator.ValidateCode: the length limit counts characters. The library's own length counting of surrogate pairs and variation selectors is not modelled.
- The answer `body.error` expected by backend/tests/code.test.js:81 for an unsupported language does not match what the middleware sends. The middleware sends an `errors` array; the model follows the middleware.
- The concrete accepted request of backend/tests/validator.test.js:99-107 (`print("Hello World")`) is not proved acceptable as a closed instance. The general acceptance condition is proved instead (`Validator.ValidateCode`, `Validator.RunOfXIsHarmless`).
- `analyzePythonCode` and `analyzeJavaScriptCode` are not part of this model: their definitions are not among the source files. The `suggestions` and `securityIssues` fields are left out with them.
- The socket connection, its reconnection after 5000 ms, `send` and `JSON.parse` of incoming data are network plumbing. Messages reach `Listeners.Dispatch` already parsed.
- The server-side broadcast socket, the health and metrics routes, the monitoring middleware, the CPU percentage (floating point), the persistence schema and all React rendering are outside the core.
- The handler has no failure classifier: a failure whose message contains "timed out" answers 408 and any other answers 500 (`RunHandler.StatusFor`). Syntax errors, memory exhaustion and runtime errors of the program are not told apart.
- The handler removes the container only on a failure, and only when the stop succeeds; a successful run relies on the engine's auto-removal (`RunHandler.CleanupOrder`).
- The success answer carries only `success` and `output`; no execution time is measured or sent.
- The timer is armed only after the container is created, and it is never cleared when `start` or the log request fails (`RunHandler.TimerLifecycle`).
- RunHandler.PrintedLineAnswered: the chunks of a `Script` are what the log stream delivers, not the program's own output. The container is created without a terminal (backend/routes/code.js:57), so the engine's stream is multiplexed: each frame carries an 8-byte header of stream type, padding and payload length. The handler does not separate the frames, so the header bytes reach the sanitizer like any other text; those outside the stripped ranges, such as a length byte of 32 or more, end up in the output. The frame format is not modelled, and no claim is made about what a given program prints.
- Listeners.Dispatch: which callbacks throw is a parameter; what a callback does besides returning or throwing is not modelled, and neither is the fate of the exception once it leaves the `onmessage` handler.

=== FILE: blocked_patterns.dfy ===
/** The six case-insensitive regular expressions the request validator uses
    to refuse code it considers harmful (backend/middleware/validator.js),
    written as explicit predicates over strings.

    Each pattern is given twice: `MatchesAt` decides a match at an index the
    way a scanner would (skip the whitespace run greedily, then look at the
    next character), and `RegexMatchAt` states the regular expression's
    meaning directly (there is SOME whitespace run after which the rest
    matches). The two are proved equal, as is the insensitivity of the
    verdict to the case of ASCII letters. */
module BlockedPatterns {
  import opened JsText

  /** A blocked pattern: the literal `process.env`, a call of a name with
      optional whitespace before the parenthesis, or an `import` of one of
      the modules `os`, `sys`, `subprocess` after at least one whitespace. */
  datatype Pattern = EnvAccess | Call(name: string) | ModuleImport

  /** The patterns in the order the validator lists them. */
  const Blocked: seq<Pattern> :=
    [EnvAccess, Call("require"), ModuleImport, Call("open"), Call("eval"), Call("exec")]

  /** The module names the import pattern refuses. */
  const ImportedModules: seq<string> := ["os", "sys", "subprocess"]

  /** The lower-case literal `lit` occurs at index `i` of `s` when ASCII
      letters are compared without regard to case. */
  predicate LiteralAt(s: string, i: nat, lit: string) {
    i + |lit| <= |s| && forall k :: 0 <= k < |lit| ==> AsciiLower(s[i + k]) == lit[k]
  }

  /** The index just past the whitespace run that starts at `j`. */
  function SkipWhitespace(s: string, j: nat): (e: nat)
    requires j <= |s|
    ensures j <= e <= |s|
    ensures forall k :: j <= k < e ==> IsWhitespace(s[k])
    ensures e == |s| || !IsWhitespace(s[e])
    decreases |s| - j
  {
    if j == |s| || !IsWhitespace(s[j]) then j else SkipWhitespace(s, j + 1)
  }

  predicate ModuleNameAt(s: string, j: nat) {
    exists m :: 0 <= m < |ImportedModules| && LiteralAt(s, j, ImportedModules[m])
  }

  /** Does `p` match `s` starting at index `i`? */
  predicate MatchesAt(p: Pattern, s: string, i: nat)
    ensures MatchesAt(p, s, i) ==> i < |s|
  {
    match p
    case EnvAccess => LiteralAt(s, i, "process.env")
    case Call(name) =>
      LiteralAt(s, i, name) &&
      var j := SkipWhitespace(s, i + |name|);
      j < |s| && s[j] == '('
    case ModuleImport =>
      LiteralAt(s, i, "import") &&
      var j := SkipWhitespace(s, i + 6);
      j > i + 6 && ModuleNameAt(s, j)
  }

  /** RegExp.prototype.test: a match starts somewhere in `s`. */
  predicate Test(p: Pattern, s: string)
    ensures Test(p, s) <==> exists i: nat :: i < |s| && RegexMatchAt(p, s, i)
  {
    RegexMatchesEverywhere(p, s);
    exists i :: 0 <= i <= |s| && MatchesAt(p, s, i)
  }

  /** Some blocked pattern matches the code. */
  predicate IsHarmful(code: string)
    ensures IsHarmful(code) ==> |code| > 0
  {
    exists k :: 0 <= k < |Blocked| && Test(Blocked[k], code)
  }

  // ---------------------------------------------------------------------
  // The regular expressions' own meaning

  /** `s[lo..hi]` is a run of whitespace, as `\s*` consumes it. */
  ghost predicate WhitespaceRun(s: string, lo: nat, hi: nat) {
    lo <= hi <= |s| && AllWhitespace(s[lo..hi])
  }

  /** What the regular expression of `p` means at index `i`: for `\s*` and
      `\s+`, some whitespace run of admissible length, not necessarily the
      longest, is followed by the rest of the pattern. */
  ghost predicate RegexMatchAt(p: Pattern, s: string, i: nat) {
    match p
    case EnvAccess => LiteralAt(s, i, "process.env")
    case Call(name) =>
      LiteralAt(s, i, name) &&
      exists j: nat :: WhitespaceRun(s, i + |name|, j) && j < |s| && s[j] == '('
    case ModuleImport =>
      LiteralAt(s, i, "import") &&
      exists j: nat :: WhitespaceRun(s, i + 6, j) && j > i + 6 && ModuleNameAt(s, j)
  }

  ghost predicate RegexHarmful(code: string) {
    exists k, i :: 0 <= k < |Blocked| && 0 <= i <= |code| && RegexMatchAt(Blocked[k], code, i)
  }

  /** A whitespace run that ends in a non-whitespace character is exactly
      the run the scanner skips. */
  lemma {:induction false} SkipLandsOn(s: string, lo: nat, j: nat)
    requires WhitespaceRun(s, lo, j) && j < |s| && !IsWhitespace(s[j])
    ensures SkipWhitespace(s, lo) == j
    decreases j - lo
  {
    if lo < j {
      SkipLandsOn(s, lo + 1, j);
    }
  }

  /** A module name never starts with whitespace. */
  lemma ModuleNameNotWhitespace(s: string, j: nat)
    requires ModuleNameAt(s, j)
    ensures j < |s| && !IsWhitespace(s[j])
  {
    var m :| 0 <= m < |ImportedModules| && LiteralAt(s, j, ImportedModules[m]);
    assert AsciiLower(s[j + 0]) == ImportedModules[m][0];
  }

  /** The scanner and the regular expression agree at every index. */
  lemma MatchesAtIffRegex(p: Pattern, s: string, i: nat)
    ensures MatchesAt(p, s, i) <==> RegexMatchAt(p, s, i)
  {
    match p
    case EnvAccess =>
    case Call(name) =>
      if LiteralAt(s, i, name) {
        var e := SkipWhitespace(s, i + |name|);
        if e < |s| && s[e] == '(' {
          assert WhitespaceRun(s, i + |name|, e);
        }
        forall j: nat | WhitespaceRun(s, i + |name|, j) && j < |s| && s[j] == '('
          ensures e == j
        {
          SkipLandsOn(s, i + |name|, j);
        }
      }
    case ModuleImport =>
      if LiteralAt(s, i, "import") {
        var e := SkipWhitespace(s, i + 6);
        if e > i + 6 && ModuleNameAt(s, e) {
          assert WhitespaceRun(s, i + 6, e);
        }
        forall j: nat | WhitespaceRun(s, i + 6, j) && j > i + 6 && ModuleNameAt(s, j)
          ensures e == j
        {
          ModuleNameNotWhitespace(s, j);
          SkipLandsOn(s, i + 6, j);
        }
      }
  }

  /** The scanner and the regular expression agree at every index of a
      text, its end included. */
  lemma RegexMatchesEverywhere(p: Pattern, s: string)
    ensures forall i: nat :: i <= |s| ==> (MatchesAt(p, s, i) <==> RegexMatchAt(p, s, i))
  {
    forall i: nat | i <= |s|
      ensures MatchesAt(p, s, i) <==> RegexMatchAt(p, s, i)
    {
      MatchesAtIffRegex(p, s, i);
    }
  }

  /** The validator's verdict is the regular expressions' verdict. */
  lemma HarmfulIffRegex(code: string)
    ensures IsHarmful(code) <==> RegexHarmful(code)
  {
    forall k, i | 0 <= k < |Blocked| && 0 <= i <= |code|
      ensures MatchesAt(Blocked[k], code, i) <==> RegexMatchAt(Blocked[k], code, i)
    {
      MatchesAtIffRegex(Blocked[k], code, i);
    }
  }

  // ---------------------------------------------------------------------
  // Case insensitivity

  /** `s` and `t` differ at most in the case of ASCII letters. */
  ghost predicate SameUpToCase(s: string, t: string) {
    |s| == |t| && forall k :: 0 <= k < |s| ==> AsciiLower(s[k]) == AsciiLower(t[k])
  }

  lemma {:induction false} SkipIgnoresCase(s: string, t: string, j: nat)
    requires SameUpToCase(s, t) && j <= |s|
    ensures SkipWhitespace(s, j) == SkipWhitespace(t, j)
    decreases |s| - j
  {
    if j < |s| {
      FoldPreservesNonLetters(s[j], t[j]);
      SkipIgnoresCase(s, t, j + 1);
    }
  }

  lemma LiteralAtIgnoresCase(s: string, t: string, i: nat, lit: string)
    requires SameUpToCase(s, t)
    ensures LiteralAt(s, i, lit) <==> LiteralAt(t, i, lit)
  {
    if i + |lit| <= |s| {
      forall k | 0 <= k < |lit|
        ensures AsciiLower(s[i + k]) == lit[k] <==> AsciiLower(t[i + k]) == lit[k]
      {
      }
    }
  }

  lemma CallIgnoresCase(name: string, s: string, t: string, i: nat)
    requires SameUpToCase(s, t)
    ensures MatchesAt(Call(name), s, i) <==> MatchesAt(Call(name), t, i)
  {
    LiteralAtIgnoresCase(s, t, i, name);
    if i + |name| <= |s| {
      SkipIgnoresCase(s, t, i + |name|);
      var j := SkipWhitespace(s, i + |name|);
      if j < |s| {
        FoldPreservesNonLetters(s[j], t[j]);
      }
    }
  }

  lemma ImportIgnoresCase(s: string, t: string, i: nat)
    requires SameUpToCase(s, t)
    ensures MatchesAt(ModuleImport, s, i) <==> MatchesAt(ModuleImport, t, i)
  {
    LiteralAtIgnoresCase(s, t, i, "import");
    if i + 6 <= |s| {
      SkipIgnoresCase(s, t, i + 6);
      var j := SkipWhitespace(s, i + 6);
      forall m | 0 <= m < |ImportedModules|
        ensures LiteralAt(s, j, ImportedModules[m]) <==> LiteralAt(t, j, ImportedModules[m])
      {
        LiteralAtIgnoresCase(s, t, j, ImportedModules[m]);
      }
      assert ModuleNameAt(s, j) <==> ModuleNameAt(t, j);
    }
  }

  lemma MatchesAtIgnoresCase(p: Pattern, s: string, t: string, i: nat)
    requires SameUpToCase(s, t)
    ensures MatchesAt(p, s, i) <==> MatchesAt(p, t, i)
  {
    match p
    case EnvAccess =>
      LiteralAtIgnoresCase(s, t, i, "process.env");
    case Call(name) =>
      CallIgnoresCase(name, s, t, i);
    case ModuleImport =>
      ImportIgnoresCase(s, t, i);
  }

  /** Changing the case of ASCII letters never changes the verdict, since
      every blocked pattern is case-insensitive. */
  lemma HarmfulIgnoresCase(s: string, t: string)
    requires SameUpToCase(s, t)
    ensures IsHarmful(s) <==> IsHarmful(t)
  {
    forall k, i | 0 <= k < |Blocked| && 0 <= i <= |s|
      ensures MatchesAt(Blocked[k], s, i) <==> MatchesAt(Blocked[k], t, i)
    {
      MatchesAtIgnoresCase(Blocked[k], s, t, i);
    }
  }

  // ---------------------------------------------------------------------
  // Examples

  /** A match of a listed pattern at some index makes the code harmful. */
  lemma MatchMakesHarmful(k: nat, code: string, i: nat)
    requires k < |Blocked| && i <= |code| && MatchesAt(Blocked[k], code, i)
    ensures IsHarmful(code)
  {
    assert Test(Blocked[k], code);
  }

  /** An `import` followed by whitespace and a listed module name makes
      the code harmful. */
  lemma ImportMakesHarmful(code: string, i: nat, j: nat, m: nat)
    requires m < |ImportedModules| && LiteralAt(code, i, "import")
    requires WhitespaceRun(code, i + 6, j) && j > i + 6 && LiteralAt(code, j, ImportedModules[m])
    ensures IsHarmful(code)
  {
    assert ModuleNameAt(code, j);
    assert RegexMatchAt(ModuleImport, code, i);
    MatchesAtIffRegex(ModuleImport, code, i);
    MatchMakesHarmful(2, code, i);
  }

  /** The six harmful snippets of backend/tests/validator.test.js are each
      caught by the pattern at the same position of the list. */
  lemma EnvExampleIsHarmful()
    ensures IsHarmful("process.env.SECRET")
  {
    MatchMakesHarmful(0, "process.env.SECRET", 0);
  }

  lemma RequireExampleIsHarmful()
    ensures IsHarmful("require(\"fs\")")
  {
    MatchMakesHarmful(1, "require(\"fs\")", 0);
  }

  lemma ImportExampleIsHarmful()
    ensures IsHarmful("import os")
  {
    ImportMakesHarmful("import os", 0, 7, 0);
  }

  lemma OpenExampleIsHarmful()
    ensures IsHarmful("open(\"/etc/passwd\")")
  {
    MatchMakesHarmful(3, "open(\"/etc/passwd\")", 0);
  }

  lemma EvalExampleIsHarmful()
    ensures IsHarmful("eval(\"alert(1)\")")
  {
    MatchMakesHarmful(4, "eval(\"alert(1)\")", 0);
  }

  lemma ExecExampleIsHarmful()
    ensures IsHarmful("exec(\"rm -rf /\")")
  {
    MatchMakesHarmful(5, "exec(\"rm -rf /\")", 0);
  }

  /** Neither case nor a word end is checked: an upper-case import of a
      module whose name merely starts with `os` is refused as well. */
  lemma ShoutedImportIsHarmful()
    ensures IsHarmful("IMPORT\tOsmosis")
  {
    var s := "IMPORT\tOsmosis";
    assert LiteralAt(s, 0, "import") by {
      assert AsciiLower(s[0]) == 'i' && AsciiLower(s[1]) == 'm' && AsciiLower(s[2]) == 'p';
      assert AsciiLower(s[3]) == 'o' && AsciiLower(s[4]) == 'r' && AsciiLower(s[5]) == 't';
    }
    assert LiteralAt(s, 7, ImportedModules[0]) by {
      assert AsciiLower(s[7]) == 'o' && AsciiLower(s[8]) == 's';
    }
    ImportMakesHarmful(s, 0, 7, 0);
  }
}

=== FILE: code_analysis.dfy ===
/** The metrics of backend/services/codeAnalysis.js: the complexity score
    (1 plus the number of whole-word occurrences of eight control-flow
    keywords), the line count (`split('\n').length`) and the character
    count (`length`, in UTF-16 code units). */
module CodeAnalysis {
  import opened JsText

  /** The keywords the score counts, in the order they are folded in. */
  const ControlFlowKeywords: seq<string> :=
    ["if", "for", "while", "switch", "catch", "forEach", "map", "filter"]

  /** A text made of word characters only, as every keyword is. */
  predicate IsWord(w: string) {
    forall k :: 0 <= k < |w| ==> IsWordChar(w[k])
  }

  /** `\b` at position `i`: a word character on exactly one side. */
  predicate BoundaryAt(s: string, i: nat)
    requires i <= |s|
  {
    (i > 0 && IsWordChar(s[i - 1])) != (i < |s| && IsWordChar(s[i]))
  }

  /** The regular expression `\b<kw>\b` (case-sensitive) matches at `i`. */
  predicate WordAt(s: string, kw: string, i: nat) {
    i + |kw| <= |s| && s[i..i + |kw|] == kw && BoundaryAt(s, i) && BoundaryAt(s, i + |kw|)
  }

  /** A whole-word occurrence of a word covers word characters only. */
  lemma WordAtSpansWordChars(s: string, kw: string, i: nat)
    requires IsWord(kw)
    ensures WordAt(s, kw, i) ==> forall m :: i <= m < i + |kw| ==> IsWordChar(s[m])
  {
    if WordAt(s, kw, i) {
      forall m | i <= m < i + |kw|
        ensures IsWordChar(s[m])
      {
        assert s[m] == s[i..i + |kw|][m - i];
      }
    }
  }

  /** The number of matches `match` with the `g` flag returns, scanning
      from `from`: after a match the scan resumes at its end, otherwise one
      position further on. */
  function GlobalMatches(s: string, kw: string, from: nat): (n: nat)
    requires |kw| > 0
    ensures from <= |s| ==> n <= |s| - from
    ensures from >= |s| ==> n == 0
    decreases |s| - from
  {
    if from >= |s| then 0
    else if WordAt(s, kw, from) then 1 + GlobalMatches(s, kw, from + |kw|)
    else GlobalMatches(s, kw, from + 1)
  }

  /** The number of positions at or after `from` where the keyword occurs
      as a whole word, overlapping or not. */
  function Occurrences(s: string, kw: string, from: nat): nat
    decreases |s| - from
  {
    if from >= |s| then 0
    else (if WordAt(s, kw, from) then 1 else 0) + Occurrences(s, kw, from + 1)
  }

  /** Inside a whole-word occurrence of a word there is no boundary, so no
      further occurrence starts there. */
  lemma NoWordInside(s: string, kw: string, i: nat, j: nat)
    requires IsWord(kw) && WordAt(s, kw, i) && i < j < i + |kw|
    ensures !WordAt(s, kw, j)
  {
    assert s[j - 1] == s[i..i + |kw|][j - 1 - i] && s[j] == s[i..i + |kw|][j - i];
    assert IsWordChar(kw[j - 1 - i]) && IsWordChar(kw[j - i]);
  }

  /** Counting positions from just inside an occurrence is counting from its
      end. */
  lemma {:induction false} SkipOccurrence(s: string, kw: string, i: nat, j: nat)
    requires IsWord(kw) && WordAt(s, kw, i) && i < j <= i + |kw|
    ensures Occurrences(s, kw, j) == Occurrences(s, kw, i + |kw|)
    decreases i + |kw| - j
  {
    if j < i + |kw| {
      NoWordInside(s, kw, i, j);
      SkipOccurrence(s, kw, i, j + 1);
    }
  }

  /** Whole-word occurrences of a word never overlap, so the global match
      counts every one of them. */
  lemma {:induction false} GlobalMatchesCountsOccurrences(s: string, kw: string, from: nat)
    requires |kw| > 0 && IsWord(kw)
    ensures GlobalMatches(s, kw, from) == Occurrences(s, kw, from)
    decreases |s| - from
  {
    if from < |s| {
      if WordAt(s, kw, from) {
        SkipOccurrence(s, kw, from, from + 1);
        GlobalMatchesCountsOccurrences(s, kw, from + |kw|);
      } else {
        GlobalMatchesCountsOccurrences(s, kw, from + 1);
      }
    }
  }

  /** No occurrences are counted exactly when there is none. */
  lemma {:induction false} OccurrencesZero(s: string, kw: string, from: nat)
    ensures Occurrences(s, kw, from) == 0 <==> forall i :: from <= i < |s| ==> !WordAt(s, kw, i)
    decreases |s| - from
  {
    if from < |s| {
      OccurrencesZero(s, kw, from + 1);
    }
  }

  lemma KeywordsAreWords()
    ensures forall k :: 0 <= k < |ControlFlowKeywords| ==>
              |ControlFlowKeywords[k]| > 0 && IsWord(ControlFlowKeywords[k])
  {
  }

  /** The reduce in calculateComplexity: start at 1 and add the matches of each
      keyword of `kws` in turn. */
  function Score(code: string, kws: seq<string>): (score: nat)
    requires forall k :: 0 <= k < |kws| ==> |kws[k]| > 0
    ensures score >= 1
    ensures |kws| == 0 ==> score == 1
  {
    if |kws| == 0 then 1
    else Score(code, kws[..|kws| - 1]) + GlobalMatches(code, kws[|kws| - 1], 0)
  }

  /** The number of whole-word occurrences in the code of each keyword of
      `kws`, added up. */
  function TotalOccurrences(code: string, kws: seq<string>): nat {
    if |kws| == 0 then 0
    else TotalOccurrences(code, kws[..|kws| - 1]) + Occurrences(code, kws[|kws| - 1], 0)
  }

  /** The score is one more than the number of whole-word keyword
      occurrences in the code. */
  lemma {:induction false} ScoreIsTotal(code: string, kws: seq<string>)
    requires forall k :: 0 <= k < |kws| ==> |kws[k]| > 0 && IsWord(kws[k])
    ensures Score(code, kws) == 1 + TotalOccurrences(code, kws)
  {
    if |kws| > 0 {
      var n := |kws| - 1;
      ScoreIsTotal(code, kws[..n]);
      GlobalMatchesCountsOccurrences(code, kws[n], 0);
    }
  }

  /** A keyword occurs in the code as a whole word. */
  predicate SomeKeywordAt(code: string, kws: seq<string>, i: nat) {
    exists k :: 0 <= k < |kws| && WordAt(code, kws[k], i)
  }

  /** The score is at least 1, and is 1 exactly when no keyword occurs
      anywhere as a whole word. */
  lemma {:induction false} ScoreIsOneIffNoKeyword(code: string, kws: seq<string>)
    requires forall k :: 0 <= k < |kws| ==> |kws[k]| > 0 && IsWord(kws[k])
    ensures Score(code, kws) >= 1
    ensures Score(code, kws) == 1 <==> forall i :: 0 <= i < |code| ==> !SomeKeywordAt(code, kws, i)
  {
    if |kws| > 0 {
      var n := |kws| - 1;
      var front := kws[..n];
      ScoreIsOneIffNoKeyword(code, front);
      GlobalMatchesCountsOccurrences(code, kws[n], 0);
      OccurrencesZero(code, kws[n], 0);
      forall i: nat | i < |code|
        ensures SomeKeywordAt(code, kws, i) <==> SomeKeywordAt(code, front, i) || WordAt(code, kws[n], i)
      {
        if SomeKeywordAt(code, kws, i) {
          var k :| 0 <= k < |kws| && WordAt(code, kws[k], i);
          if k < n {
            assert front[k] == kws[k];
          }
        }
        if SomeKeywordAt(code, front, i) {
          var k :| 0 <= k < |front| && WordAt(code, front[k], i);
          assert kws[k] == front[k];
        }
      }
    }
  }

  /** calculateComplexity: one plus the number of whole-word occurrences of
      the control-flow keywords. */
  function Complexity(code: string): (c: nat)
    ensures c == 1 + TotalOccurrences(code, ControlFlowKeywords)
    ensures c >= 1
    ensures c == 1 <==> forall i :: 0 <= i < |code| ==> !SomeKeywordAt(code, ControlFlowKeywords, i)
  {
    KeywordsAreWords();
    ScoreIsTotal(code, ControlFlowKeywords);
    ScoreIsOneIffNoKeyword(code, ControlFlowKeywords);
    Score(code, ControlFlowKeywords)
  }

  // ---------------------------------------------------------------------
  // Whole words only

  /** A keyword glued to a word character on its left is not counted:
      `elif` adds nothing for `if`. */
  lemma PrecededNotCounted(s: string, kw: string, i: nat)
    requires |kw| > 0 && IsWord(kw) && 0 < i <= |s| && IsWordChar(s[i - 1])
    ensures !WordAt(s, kw, i)
  {
    WordAtSpansWordChars(s, kw, i);
  }

  /** A keyword glued to a word character on its right is not counted:
      `forEach` adds nothing for `for`. */
  lemma FollowedNotCounted(s: string, kw: string, i: nat)
    requires |kw| > 0 && IsWord(kw) && i + |kw| < |s| && IsWordChar(s[i + |kw|])
    ensures !WordAt(s, kw, i)
  {
    WordAtSpansWordChars(s, kw, i);
  }

  lemma ElifHasNoIf()
    ensures !WordAt("elif", "if", 2)
  {
    PrecededNotCounted("elif", "if", 2);
  }

  lemma ForEachHasNoFor()
    ensures !WordAt("forEach", "for", 0)
  {
    FollowedNotCounted("forEach", "for", 0);
  }

  /** Matching is case-sensitive: `IF` is not `if`. */
  lemma UpperCaseNotCounted()
    ensures !WordAt("IF", "if", 0)
  {
    assert "IF"[0..2][0] == 'I';
  }

  // ---------------------------------------------------------------------
  // Joining two texts

  /** In `a + [sep] + b`, a whole word starting inside `a` is one of `a`. */
  lemma WordAtLeft(a: string, sep: char, b: string, kw: string, i: nat)
    requires |kw| > 0 && IsWord(kw) && !IsWordChar(sep) && i <= |a|
    ensures WordAt(a + [sep] + b, kw, i) <==> WordAt(a, kw, i)
  {
    var t := a + [sep] + b;
    assert t[|a|] == sep;
    WordAtSpansWordChars(t, kw, i);
    if WordAt(t, kw, i) {
      assert i + |kw| <= |a|;
      assert a[i..i + |kw|] == t[i..i + |kw|];
    }
    if WordAt(a, kw, i) {
      assert a[i..i + |kw|] == t[i..i + |kw|];
    }
  }

  /** In `a + [sep] + b`, a whole word starting after the separator is one
      of `b`. */
  lemma WordAtRight(a: string, sep: char, b: string, kw: string, j: nat)
    requires !IsWordChar(sep)
    ensures WordAt(a + [sep] + b, kw, |a| + 1 + j) <==> WordAt(b, kw, j)
  {
    var t := a + [sep] + b;
    var i := |a| + 1 + j;
    if j + |kw| <= |b| {
      assert t[i..i + |kw|] == b[j..j + |kw|];
    }
  }

  /** The separator itself starts no keyword. */
  lemma NoWordAtSeparator(a: string, sep: char, b: string, kw: string)
    requires |kw| > 0 && IsWord(kw) && !IsWordChar(sep)
    ensures !WordAt(a + [sep] + b, kw, |a|)
  {
    var t := a + [sep] + b;
    assert t[|a|] == sep;
    WordAtSpansWordChars(t, kw, |a|);
  }

  lemma {:induction false} RightOccurrences(a: string, sep: char, b: string, kw: string, j: nat)
    requires !IsWordChar(sep)
    ensures Occurrences(a + [sep] + b, kw, |a| + 1 + j) == Occurrences(b, kw, j)
    decreases |b| - j
  {
    if j < |b| {
      WordAtRight(a, sep, b, kw, j);
      RightOccurrences(a, sep, b, kw, j + 1);
    }
  }

  lemma {:induction false} SplitOccurrences(a: string, sep: char, b: string, kw: string, from: nat)
    requires |kw| > 0 && IsWord(kw) && !IsWordChar(sep) && from <= |a|
    ensures Occurrences(a + [sep] + b, kw, from) == Occurrences(a, kw, from) + Occurrences(b, kw, 0)
    decreases |a| - from
  {
    if from == |a| {
      NoWordAtSeparator(a, sep, b, kw);
      RightOccurrences(a, sep, b, kw, 0);
    } else {
      WordAtLeft(a, sep, b, kw, from);
      SplitOccurrences(a, sep, b, kw, from + 1);
    }
  }

  lemma {:induction false} ScoreOfJoin(a: string, sep: char, b: string, kws: seq<string>)
    requires forall k :: 0 <= k < |kws| ==> |kws[k]| > 0 && IsWord(kws[k])
    requires !IsWordChar(sep)
    ensures Score(a + [sep] + b, kws) + 1 == Score(a, kws) + Score(b, kws)
  {
    if |kws| > 0 {
      var n := |kws| - 1;
      var t := a + [sep] + b;
      ScoreOfJoin(a, sep, b, kws[..n]);
      GlobalMatchesCountsOccurrences(t, kws[n], 0);
      GlobalMatchesCountsOccurrences(a, kws[n], 0);
      GlobalMatchesCountsOccurrences(b, kws[n], 0);
      SplitOccurrences(a, sep, b, kws[n], 0);
    }
  }

  /** Joining two texts with a separator that is not a word character
      adds their scores, less the shared starting value 1. */
  lemma ComplexityOfJoin(a: string, sep: char, b: string)
    requires !IsWordChar(sep)
    ensures Complexity(a + [sep] + b) == Complexity(a) + Complexity(b) - 1
  {
    KeywordsAreWords();
    ScoreOfJoin(a, sep, b, ControlFlowKeywords);
  }

  // ---------------------------------------------------------------------
  // Lines and characters

  /** String.prototype.split with the separator "\n": the pieces between
      line feeds, including the empty ones at either end. */
  function SplitLines(s: string): (lines: seq<string>)
    ensures |lines| >= 1
    ensures forall k :: 0 <= k < |lines| ==> '\n' !in lines[k]
  {
    if |s| == 0 then [""]
    else
      var rest := SplitLines(s[1..]);
      if s[0] == '\n' then [""] + rest
      else [[s[0]] + rest[0]] + rest[1..]
  }

  /** Array.prototype.join with the separator "\n". */
  function JoinLines(lines: seq<string>): string
    requires |lines| >= 1
  {
    if |lines| == 1 then lines[0] else lines[0] + "\n" + JoinLines(lines[1..])
  }

  /** Splitting loses nothing: joining the pieces gives the text back. */
  lemma {:induction false} JoinSplitLines(s: string)
    ensures JoinLines(SplitLines(s)) == s
  {
    if |s| > 0 {
      var rest := SplitLines(s[1..]);
      JoinSplitLines(s[1..]);
      if s[0] == '\n' {
        assert SplitLines(s)[1..] == rest;
      } else {
        var lines := SplitLines(s);
        assert lines[0] == [s[0]] + rest[0];
        if |rest| > 1 {
          assert lines[1..] == rest[1..];
        }
      }
    }
  }

  /** Splitting a text that starts with a character other than a line
      feed puts that character in front of the first piece. */
  lemma SplitLinesCons(c: char, s: string)
    ensures SplitLines([c] + s) ==
            if c == '\n' then [""] + SplitLines(s)
            else [[c] + SplitLines(s)[0]] + SplitLines(s)[1..]
  {
    assert ([c] + s)[1..] == s;
  }

  /** Joining pieces whose first piece is not empty starts with that
      piece's first character. */
  lemma JoinLinesFirstChar(lines: seq<string>)
    requires |lines| >= 1 && |lines[0]| > 0
    ensures JoinLines(lines) == [lines[0][0]] + JoinLines([lines[0][1..]] + lines[1..])
  {
    var shorter := [lines[0][1..]] + lines[1..];
    assert lines[0] == [lines[0][0]] + lines[0][1..];
    if |lines| > 1 {
      assert shorter[1..] == lines[1..];
    }
  }

  /** Splitting undoes joining for pieces without line feeds. */
  lemma {:induction false} SplitJoinLines(lines: seq<string>)
    requires |lines| >= 1
    requires forall k :: 0 <= k < |lines| ==> '\n' !in lines[k]
    ensures SplitLines(JoinLines(lines)) == lines
    decreases |lines|, |lines[0]|
  {
    if |lines[0]| > 0 {
      var first := lines[0];
      var shorter := [first[1..]] + lines[1..];
      assert '\n' !in first[1..] by {
        assert forall c :: c in first[1..] ==> c in first;
      }
      assert forall k :: 1 <= k < |shorter| ==> shorter[k] == lines[k];
      SplitJoinLines(shorter);
      assert first[0] != '\n' by { assert first[0] in first; }
      JoinLinesFirstChar(lines);
      SplitLinesCons(first[0], JoinLines(shorter));
      assert [first[0]] + first[1..] == first;
      assert lines == [first] + shorter[1..];
    } else if |lines| > 1 {
      assert forall k :: 0 <= k < |lines| - 1 ==> lines[1..][k] == lines[k + 1];
      SplitJoinLines(lines[1..]);
      SplitLinesCons('\n', JoinLines(lines[1..]));
      assert lines == [""] + lines[1..];
    }
  }

  /** The number of line feeds in the text. */
  function Newlines(s: string): nat {
    multiset(s)['\n']
  }

  /** One line more than there are line feeds. */
  lemma {:induction false} SplitLinesCount(s: string)
    ensures |SplitLines(s)| == Newlines(s) + 1
  {
    if |s| > 0 {
      SplitLinesCount(s[1..]);
      assert s == [s[0]] + s[1..];
      assert multiset(s) == multiset([s[0]]) + multiset(s[1..]);
    }
  }

  /** `code.split('\n').length`: at least 1, even for empty code, and one
      more than the number of line feeds. */
  function LineCount(code: string): (n: nat)
    ensures n >= 1
    ensures n == Newlines(code) + 1
  {
    SplitLinesCount(code);
    |SplitLines(code)|
  }

  /** A character outside the Basic Multilingual Plane, which JavaScript
      stores as a surrogate pair. */
  predicate IsAstral(c: char) {
    c as int >= 0x1_0000
  }

  /** `code.length`: the number of UTF-16 code units, one per character
      and two for an astral one. */
  function CharacterCount(code: string): (n: nat)
    ensures |code| <= n <= 2 * |code|
    ensures n == |code| <==> forall i :: 0 <= i < |code| ==> !IsAstral(code[i])
  {
    if |code| == 0 then 0
    else (if IsAstral(code[0]) then 2 else 1) + CharacterCount(code[1..])
  }

  /** The character count adds up over concatenation. */
  lemma {:induction false} CharacterCountAppend(a: string, b: string)
    ensures CharacterCount(a + b) == CharacterCount(a) + CharacterCount(b)
  {
    if |a| > 0 {
      assert (a + b)[1..] == a[1..] + b;
      CharacterCountAppend(a[1..], b);
    } else {
      assert a + b == b;
    }
  }

  /** The metrics analyzeCode reports. */
  datatype Analysis = Analysis(complexity: nat, lineCount: nat, characterCount: nat)

  /** The language-independent part of analyzeCode: every metric of any
      code, the empty code included, is well defined; the score is one more
      than the number of keyword occurrences, the line count one more than
      the number of newlines, and the character count the UTF-16 length,
      never below the number of characters. */
  function Analyze(code: string): (a: Analysis)
    ensures a.complexity == Complexity(code) && a.lineCount == LineCount(code) && a.characterCount == CharacterCount(code)
    ensures a.complexity == 1 + TotalOccurrences(code, ControlFlowKeywords)
    ensures a.lineCount == Newlines(code) + 1
    ensures |code| <= a.characterCount <= 2 * |code|
  {
    Analysis(Complexity(code), LineCount(code), CharacterCount(code))
  }
}

=== FILE: container_config.dfy ===
/** The container the `/code/run` handler asks the engine to create
    (backend/routes/code.js): the image and command chosen by language, and
    the host limits every container gets. */
module ContainerConfig {
  import opened Languages

  /** The host configuration of a container: removal when it exits, a
      memory ceiling in bytes, a CPU allowance in billionths of a CPU, and
      the network mode. */
  datatype HostConfig = HostConfig(autoRemove: bool, memory: nat, nanoCpus: nat, networkMode: string)

  /** The create request: image, command line, terminal flag and limits. */
  datatype CreateOptions = CreateOptions(image: string, cmd: seq<string>, tty: bool, hostConfig: HostConfig)

  /** 100 MiB. */
  const MemoryLimit: nat := 100 * 1024 * 1024

  /** One full CPU. */
  const CpuLimit: nat := 1_000_000_000

  /** The limits shared by every container: removed on exit, 100 MiB of
      memory, one CPU, no network. */
  const Limits: HostConfig := HostConfig(true, MemoryLimit, CpuLimit, "none")

  /** The image table. */
  function Image(lang: Language): string {
    match lang
    case Python => "python:3.8"
    case JavaScript => "node:14"
  }

  /** The interpreter and the flag that makes it run its next argument as a
      program. */
  function Interpreter(lang: Language): seq<string> {
    match lang
    case Python => ["python", "-c"]
    case JavaScript => ["node", "-e"]
  }

  /** The create request for running `code` in `lang`: the code is passed
      verbatim as the last argument of the command, no terminal is
      allocated, and the limits are the shared ones whatever the language
      or code. */
  function Options(lang: Language, code: string): (o: CreateOptions)
    ensures |o.cmd| == 3 && o.cmd[2] == code
    ensures o.cmd[..2] == Interpreter(lang) && o.image == Image(lang)
    ensures !o.tty
    ensures o.hostConfig.autoRemove && o.hostConfig.networkMode == "none"
    ensures o.hostConfig.memory == 104_857_600 && o.hostConfig.nanoCpus == 1_000_000_000
  {
    CreateOptions(Image(lang), Interpreter(lang) + [code], false, Limits)
  }

  /** Reading the language back off a create request. */
  function LanguageOfImage(image: string): (lang: Language)
    requires image == "python:3.8" || image == "node:14"
    ensures Image(lang) == image
  {
    if image == "python:3.8" then Python else JavaScript
  }

  /** The create request determines the request it was built from: the
      language can be read back from the image, the code from the last
      argument. So two different runs never share a container
      configuration. */
  lemma OptionsRoundTrip(lang: Language, code: string)
    ensures var o := Options(lang, code);
            (o.image == "python:3.8" || o.image == "node:14") &&
            LanguageOfImage(o.image) == lang && o.cmd[|o.cmd| - 1] == code
  {
  }

  /** The image and the interpreter agree: a Python image runs `python`, a
      Node image runs `node`. */
  lemma ImageMatchesInterpreter(lang: Language, code: string)
    ensures Options(lang, code).image == "python:3.8" <==> Options(lang, code).cmd[0] == "python"
    ensures Options(lang, code).image == "node:14" <==> Options(lang, code).cmd[0] == "node"
  {
  }
}

=== FILE: history_filter.dfy ===
/** The text filter of the client's execution history view
    (frontend/src/components/ExecutionHistory.jsx): the entries whose code
    or output contains the filter text, in their original order, and the
    row count handed to the pagination control. */
module HistoryFilter {
  import opened JsText
  import opened Seqs

  /** One past execution as the view receives it. */
  datatype Entry = Entry(timestamp: string, language: string, code: string, output: string, executionTime: nat)

  /** The case-sensitive substring test of the filter. */
  predicate MatchesFilter(filter: string, e: Entry) {
    Includes(e.code, filter) || Includes(e.output, filter)
  }

  /** `filteredHistory`: the matching entries, in order; every matching
      entry is kept and nothing else. */
  function FilterHistory(history: seq<Entry>, filter: string): (r: seq<Entry>)
    ensures |r| <= |history|
    ensures forall i :: 0 <= i < |r| ==> r[i] in history && MatchesFilter(filter, r[i])
    ensures forall i :: 0 <= i < |history| && MatchesFilter(filter, history[i]) ==> history[i] in r
  {
    Filter(e => MatchesFilter(filter, e), history)
  }

  /** The order of the history is kept: filtering the older and the newer
      part separately and putting the results together gives the same
      list. */
  lemma FilterHistoryAppend(older: seq<Entry>, newer: seq<Entry>, filter: string)
    ensures FilterHistory(older + newer, filter) == FilterHistory(older, filter) + FilterHistory(newer, filter)
  {
    FilterAppend(e => MatchesFilter(filter, e), older, newer);
  }

  /** Every entry appears in the result as often as in the history when it
      matches, and not at all otherwise. */
  lemma FilterHistoryCounts(history: seq<Entry>, filter: string, e: Entry)
    ensures multiset(FilterHistory(history, filter))[e] ==
            if MatchesFilter(filter, e) then multiset(history)[e] else 0
  {
    FilterCounts(x => MatchesFilter(filter, x), history, e);
  }

  /** The empty filter, the initial state of the view, shows the whole
      history. */
  lemma EmptyFilterKeepsAll(history: seq<Entry>)
    ensures FilterHistory(history, "") == history
  {
    forall i | 0 <= i < |history|
      ensures MatchesFilter("", history[i])
    {
      IncludesEmpty(history[i].code);
    }
    FilterKeepsAll(e => MatchesFilter("", e), history);
  }

  /** Filtering the filtered list again changes nothing. */
  lemma FilterHistoryIdempotent(history: seq<Entry>, filter: string)
    ensures FilterHistory(FilterHistory(history, filter), filter) == FilterHistory(history, filter)
  {
    FilterIdempotent(e => MatchesFilter(filter, e), history);
  }

  /** Typing more characters around the filter only narrows the list: what
      a longer filter shows, the shorter one it contains shows too. */
  lemma LongerFilterNarrows(history: seq<Entry>, shorter: string, longer: string)
    requires Includes(longer, shorter)
    ensures FilterHistory(FilterHistory(history, longer), shorter) == FilterHistory(history, longer)
  {
    var r := FilterHistory(history, longer);
    forall i | 0 <= i < |r|
      ensures MatchesFilter(shorter, r[i])
    {
      if Includes(r[i].code, longer) {
        IncludesTransitive(r[i].code, longer, shorter);
      } else {
        IncludesTransitive(r[i].output, longer, shorter);
      }
    }
    FilterKeepsAll(e => MatchesFilter(shorter, e), r);
  }

  /** The `count` of the pagination control: the number of history
      entries that match the filter, which is the whole history's length
      exactly when every entry matches. */
  function PaginationCount(history: seq<Entry>, filter: string): (n: nat)
    ensures n == |set i: nat | i < |history| && MatchesFilter(filter, history[i])|
    ensures n <= |history|
    ensures n == |history| <==> forall i :: 0 <= i < |history| ==> MatchesFilter(filter, history[i])
  {
    var matches := e => MatchesFilter(filter, e);
    FilterLengthExact(matches, history);
    FilterLengthIsMatchCount(matches, history);
    assert MatchingPositions(matches, history) == set i: nat | i < |history| && MatchesFilter(filter, history[i]);
    |FilterHistory(history, filter)|
  }
}

=== FILE: js_text.dfy ===
/** The JavaScript string primitives the server and client rely on: the
    whitespace class shared by the `\s` regular-expression escape and
    String.prototype.trim, ASCII case folding as used by case-insensitive
    regular expressions, the word characters behind `\b`,
    String.prototype.includes and String.prototype.trim. */
module JsText {

  /** The characters `\s` matches and `trim` removes: the ECMAScript
      WhiteSpace and LineTerminator productions (tab, line feed, vertical tab,
      form feed, carriage return, space, no-break space, the Unicode space
      separators, line and paragraph separator, byte order mark). */
  predicate IsWhitespace(c: char) {
    || c == '\t' || c == '\n' || c == '\U{B}' || c == '\U{C}' || c == '\r'
    || c == ' ' || c == '\U{A0}' || c == '\U{1680}'
    || ('\U{2000}' <= c <= '\U{200A}')
    || c == '\U{2028}' || c == '\U{2029}' || c == '\U{202F}' || c == '\U{205F}'
    || c == '\U{3000}' || c == '\U{FEFF}'
  }

  /** The characters `\b` treats as word characters: [A-Za-z0-9_]. */
  predicate IsWordChar(c: char) {
    ('A' <= c <= 'Z') || ('a' <= c <= 'z') || ('0' <= c <= '9') || c == '_'
  }

  /** Case folding of a case-insensitive, non-Unicode regular expression, as
      far as it matters for patterns made of ASCII characters: an ASCII
      upper-case letter matches its lower-case form, and no other character
      is identified with an ASCII character. */
  function AsciiLower(c: char): (r: char)
    ensures 'a' <= r <= 'z' <==> ('a' <= c <= 'z' || 'A' <= c <= 'Z')
    ensures !('A' <= c <= 'Z') ==> r == c
  {
    if 'A' <= c <= 'Z' then (c as int + 32) as char else c
  }

  /** Two characters with the same fold are equal or are the two cases of
      one ASCII letter; so neither whitespace nor any other non-letter is
      ever confused with another character by folding. */
  lemma FoldPreservesNonLetters(a: char, b: char)
    requires AsciiLower(a) == AsciiLower(b)
    ensures a == b || (('a' <= AsciiLower(a) <= 'z') && IsWordChar(a) && IsWordChar(b))
  {
  }

  /** `t` occurs in `s` starting at index `i`. */
  ghost predicate OccursAt(s: string, t: string, i: int) {
    0 <= i && i + |t| <= |s| && s[i..i + |t|] == t
  }

  /** String.prototype.includes: case-sensitive substring search. */
  predicate Includes(s: string, t: string)
    ensures Includes(s, t) ==> |t| <= |s|
    ensures t == [] ==> Includes(s, t)
    decreases |s|
  {
    t <= s || (|s| > 0 && Includes(s[1..], t))
  }

  /** An occurrence at any index makes `includes` hold. */
  lemma {:induction false} OccursImpliesIncludes(s: string, t: string, i: int)
    requires OccursAt(s, t, i)
    ensures Includes(s, t)
    decreases i
  {
    if i == 0 {
      assert s[..|t|] == t;
    } else {
      assert s[1..][i - 1..i - 1 + |t|] == s[i..i + |t|];
      OccursImpliesIncludes(s[1..], t, i - 1);
    }
  }

  /** `includes` only holds when there is an occurrence. */
  lemma {:induction false} IncludesHasOccurrence(s: string, t: string) returns (i: int)
    requires Includes(s, t)
    ensures OccursAt(s, t, i)
    decreases |s|
  {
    if t <= s {
      i := 0;
    } else {
      var j := IncludesHasOccurrence(s[1..], t);
      assert s[1..][j..j + |t|] == s[j + 1..j + 1 + |t|];
      i := j + 1;
    }
  }

  /** `includes` holds exactly when the text occurs at some index. */
  lemma IncludesIffOccurs(s: string, t: string)
    ensures Includes(s, t) <==> exists i :: OccursAt(s, t, i)
  {
    if Includes(s, t) {
      var i := IncludesHasOccurrence(s, t);
    }
    forall i | OccursAt(s, t, i)
      ensures Includes(s, t)
    {
      OccursImpliesIncludes(s, t, i);
    }
  }

  /** Every string includes the empty string. */
  lemma IncludesEmpty(s: string)
    ensures Includes(s, "")
  {
  }

  /** A text that includes `t` includes everything `t` includes. */
  lemma IncludesTransitive(s: string, t: string, u: string)
    requires Includes(s, t) && Includes(t, u)
    ensures Includes(s, u)
  {
    var i := IncludesHasOccurrence(s, t);
    var j := IncludesHasOccurrence(t, u);
    forall k | 0 <= k < |u|
      ensures s[i + j + k] == u[k]
    {
      assert u[k] == t[j..j + |u|][k] == t[j + k];
      assert t[j + k] == s[i..i + |t|][j + k];
    }
    assert s[i + j..i + j + |u|] == u;
    OccursImpliesIncludes(s, u, i + j);
  }

  ghost predicate AllWhitespace(s: string) {
    forall k :: 0 <= k < |s| ==> IsWhitespace(s[k])
  }

  /** No whitespace at either end. */
  ghost predicate IsTrimmed(s: string) {
    s == [] || (!IsWhitespace(s[0]) && !IsWhitespace(s[|s| - 1]))
  }

  /** `r` is `s` without a whitespace prefix and a whitespace suffix, and
      `r` itself neither starts nor ends with whitespace. */
  ghost predicate IsTrimOf(s: string, r: string) {
    IsTrimmed(r) && exists p, q :: s == p + r + q && AllWhitespace(p) && AllWhitespace(q)
  }

  lemma TrimOfSplit(s: string, p: string, r: string, q: string)
    requires s == p + r + q && AllWhitespace(p) && AllWhitespace(q) && IsTrimmed(r)
    ensures IsTrimOf(s, r)
  {
  }

  /** The number of whitespace characters at the start of `s`. */
  function LeadingWhitespace(s: string): (n: nat)
    ensures n <= |s|
    ensures AllWhitespace(s[..n])
    ensures n == |s| || !IsWhitespace(s[n])
  {
    if s == [] || !IsWhitespace(s[0]) then 0
    else
      var m := LeadingWhitespace(s[1..]);
      assert s[..m + 1] == [s[0]] + s[1..][..m];
      m + 1
  }

  /** The number of whitespace characters at the end of `s`. */
  function TrailingWhitespace(s: string): (n: nat)
    ensures n <= |s|
    ensures AllWhitespace(s[|s| - n..])
    ensures n == |s| || !IsWhitespace(s[|s| - n - 1])
  {
    if s == [] || !IsWhitespace(s[|s| - 1]) then 0
    else
      var init := s[..|s| - 1];
      var m := TrailingWhitespace(init);
      assert s[|s| - (m + 1)..] == init[|init| - m..] + [s[|s| - 1]];
      m + 1
  }

  /** The trailing whitespace never reaches back to a non-whitespace
      character. */
  lemma {:induction false} TrailingStopsBefore(s: string, k: nat)
    requires k < |s| && !IsWhitespace(s[k])
    ensures TrailingWhitespace(s) < |s| - k
  {
    if IsWhitespace(s[|s| - 1]) {
      TrailingStopsBefore(s[..|s| - 1], k);
    }
  }

  /** Cutting a whitespace prefix and a whitespace suffix that end next to
      non-whitespace characters leaves the trim. */
  lemma TrimBetween(s: string, a: nat, b: nat)
    requires a < b <= |s|
    requires AllWhitespace(s[..a]) && AllWhitespace(s[b..])
    requires !IsWhitespace(s[a]) && !IsWhitespace(s[b - 1])
    ensures IsTrimOf(s, s[a..b])
  {
    assert s == s[..a] + s[a..b] + s[b..];
    TrimOfSplit(s, s[..a], s[a..b], s[b..]);
  }

  /** String.prototype.trim: `s` with its leading and trailing whitespace
      removed. The result is what is left between a whitespace-only prefix
      and a whitespace-only suffix, and has no whitespace at either end. */
  function Trim(s: string): (r: string)
    ensures IsTrimOf(s, r)
  {
    var a := LeadingWhitespace(s);
    if a == |s| then
      assert s[..a] == s;
      TrimOfSplit(s, s, [], []);
      []
    else
      TrailingStopsBefore(s, a);
      var n := TrailingWhitespace(s);
      TrimBetween(s, a, |s| - n);
      s[a..|s| - n]
  }

  /** The leading-whitespace count is pinned down by its contract. */
  lemma {:induction false} LeadingWhitespaceIs(s: string, n: nat)
    requires n <= |s| && AllWhitespace(s[..n]) && (n == |s| || !IsWhitespace(s[n]))
    ensures LeadingWhitespace(s) == n
  {
    if n > 0 {
      assert IsWhitespace(s[..n][0]);
      assert s[1..][..n - 1] == s[1..n];
      LeadingWhitespaceIs(s[1..], n - 1);
    }
  }

  /** The trailing-whitespace count is pinned down by its contract. */
  lemma {:induction false} TrailingWhitespaceIs(s: string, n: nat)
    requires n <= |s| && AllWhitespace(s[|s| - n..]) && (n == |s| || !IsWhitespace(s[|s| - n - 1]))
    ensures TrailingWhitespace(s) == n
  {
    if n > 0 {
      assert IsWhitespace(s[|s| - n..][n - 1]);
      var init := s[..|s| - 1];
      assert init[|init| - (n - 1)..] == s[|s| - n..|s| - 1];
      TrailingWhitespaceIs(init, n - 1);
    }
  }

  /** Trim is determined by its contract: any split of `s` into a
      whitespace prefix, a text without whitespace at its ends, and a
      whitespace suffix has that middle text as the trim of `s`. */
  lemma TrimUnique(s: string, p: string, r: string, q: string)
    requires s == p + r + q && AllWhitespace(p) && AllWhitespace(q) && IsTrimmed(r)
    ensures Trim(s) == r
  {
    if r == [] {
      assert s[..|s|] == p + q;
      LeadingWhitespaceIs(s, |s|);
    } else {
      assert s[..|p|] == p;
      assert s[|p|] == r[0];
      LeadingWhitespaceIs(s, |p|);
      assert s[|s| - |q|..] == q;
      assert s[|s| - |q| - 1] == r[|r| - 1];
      TrailingWhitespaceIs(s, |q|);
      assert s[|p|..|s| - |q|] == r;
    }
  }

  /** Trimming an already trimmed string changes nothing. */
  lemma TrimIdempotent(s: string)
    ensures Trim(Trim(s)) == Trim(s)
  {
    var r := Trim(s);
    assert r == [] + r + [];
    TrimUnique(r, [], r, []);
  }
}

=== FILE: languages.dfy ===
/** The two languages the service runs, and their names on the wire. */
module Languages {

  datatype Language = Python | JavaScript

  /** The request body names the language by this string. */
  function Name(lang: Language): string {
    match lang
    case Python => "python"
    case JavaScript => "javascript"
  }

  /** The whitelist check: the name is exactly one of the two supported
      names (case-sensitive, no trimming). */
  predicate IsSupported(name: string) {
    name == "python" || name == "javascript"
  }

  /** The language a supported name denotes. */
  function FromName(name: string): (lang: Language)
    requires IsSupported(name)
    ensures Name(lang) == name
  {
    if name == "python" then Python else JavaScript
  }

  /** Names and languages are in one-to-one correspondence. */
  lemma NameRoundTrip(lang: Language)
    ensures IsSupported(Name(lang)) && FromName(Name(lang)) == lang
  {
  }
}

=== FILE: listeners.dfy ===
/** The listener registry of the client's socket wrapper
    (frontend/src/services/websocket.js): a map from message type to the
    callbacks subscribed for it, in subscription order, and the dispatch of
    an incoming message to the callbacks of its type. Callbacks are opaque
    values compared by identity, as `!==` compares functions. */
module Listeners {
  import opened Seqs

  type Registry<K, C> = map<K, seq<C>>

  /** A parsed incoming message: its `type` field and the whole object. */
  datatype Message<K, D> = Message(kind: K, data: D)

  /** One call of a listener with the parsed message. */
  datatype Invocation<C, D> = Invocation(listener: C, data: D)

  /** The callbacks of a type; a type never subscribed to has none. */
  function ListenersOf<K, C>(reg: Registry<K, C>, kind: K): seq<C> {
    if kind in reg then reg[kind] else []
  }

  /** `subscribe`: append the callback to the type's list, creating the
      list when the type has none. There is no duplicate check. */
  function Subscribe<K, C>(reg: Registry<K, C>, kind: K, cb: C): (r: Registry<K, C>)
    ensures kind in r && |r[kind]| == |ListenersOf(reg, kind)| + 1 && r[kind][|r[kind]| - 1] == cb
    ensures r[kind][..|r[kind]| - 1] == ListenersOf(reg, kind)
    ensures r.Keys == reg.Keys + {kind}
    ensures forall u :: u in r && u != kind ==> u in reg && r[u] == reg[u]
  {
    reg[kind := ListenersOf(reg, kind) + [cb]]
  }

  /** `unsubscribe`: keep the type's callbacks other than `cb`, in order;
      a type with no list is left alone. */
  function Unsubscribe<K, C(==)>(reg: Registry<K, C>, kind: K, cb: C): (r: Registry<K, C>)
    ensures kind !in reg ==> r == reg
    ensures r.Keys == reg.Keys
    ensures forall u :: u in r && u != kind ==> r[u] == reg[u]
    ensures kind in r ==> |r[kind]| <= |reg[kind]| && cb !in r[kind]
  {
    if kind in reg then reg[kind := Filter(l => l != cb, reg[kind])] else reg
  }

  /** The result of a dispatch: the calls made, and whether an exception
      from a callback escaped the handler. */
  datatype Delivery<C, D> = Delivery(calls: seq<Invocation<C, D>>, escaped: bool)

  /** `forEach` over a list of callbacks: each is called in turn with the
      message; a callback that throws ends the loop, so the callbacks after
      it are not called and the exception leaves the handler. `throws`
      says which callbacks throw on this message. */
  function Deliver<C, D>(ls: seq<C>, data: D, throws: C -> bool): (d: Delivery<C, D>)
    ensures |d.calls| <= |ls|
    ensures forall i :: 0 <= i < |d.calls| ==> d.calls[i] == Invocation(ls[i], data)
    ensures forall i :: 0 <= i < |d.calls| && throws(ls[i]) ==> d.escaped && i == |d.calls| - 1
    ensures d.escaped <==> exists i :: 0 <= i < |ls| && throws(ls[i])
    ensures d.escaped ==> 0 < |d.calls| && throws(ls[|d.calls| - 1])
    ensures !d.escaped ==> |d.calls| == |ls|
  {
    if |ls| == 0 then Delivery([], false)
    else if throws(ls[0]) then Delivery([Invocation(ls[0], data)], true)
    else
      var rest := Deliver(ls[1..], data, throws);
      assert forall i :: 1 <= i < |ls| ==> ls[i] == ls[1..][i - 1];
      Delivery([Invocation(ls[0], data)] + rest.calls, rest.escaped)
  }

  /** The `onmessage` handler after parsing: the callbacks of the message's
      type are called with the message, in subscription order, up to and
      including the first one that throws; a type without callbacks calls
      nothing. */
  function Dispatch<K, C, D>(reg: Registry<K, C>, m: Message<K, D>, throws: C -> bool): (d: Delivery<C, D>)
    ensures d.escaped <==> exists i :: 0 <= i < |ListenersOf(reg, m.kind)| && throws(ListenersOf(reg, m.kind)[i])
    ensures |d.calls| <= |ListenersOf(reg, m.kind)|
    ensures !d.escaped ==> |d.calls| == |ListenersOf(reg, m.kind)|
    ensures forall i :: 0 <= i < |d.calls| ==> d.calls[i] == Invocation(ListenersOf(reg, m.kind)[i], m.data)
    ensures forall i :: 0 <= i < |d.calls| && throws(ListenersOf(reg, m.kind)[i]) ==> d.escaped && i == |d.calls| - 1
    ensures d.escaped ==> 0 < |d.calls| && throws(ListenersOf(reg, m.kind)[|d.calls| - 1])
    ensures m.kind !in reg ==> d == Delivery([], false)
  {
    Deliver(ListenersOf(reg, m.kind), m.data, throws)
  }

  /** Dispatch only depends on the listeners of the message's type. */
  lemma DispatchDependsOnListeners<K, C, D>(reg1: Registry<K, C>, reg2: Registry<K, C>, m: Message<K, D>, throws: C -> bool)
    requires ListenersOf(reg1, m.kind) == ListenersOf(reg2, m.kind)
    ensures Dispatch(reg1, m, throws) == Dispatch(reg2, m, throws)
  {
  }

  /** Subscribing the same callback twice registers it twice, and a message
      of that type then calls it twice when no callback throws. */
  lemma SubscribeTwice<K, C, D>(reg: Registry<K, C>, kind: K, cb: C, data: D, throws: C -> bool)
    requires forall l :: l in ListenersOf(reg, kind) ==> !throws(l)
    requires !throws(cb)
    ensures ListenersOf(Subscribe(Subscribe(reg, kind, cb), kind, cb), kind) == ListenersOf(reg, kind) + [cb, cb]
    ensures var d := Dispatch(Subscribe(Subscribe(reg, kind, cb), kind, cb), Message(kind, data), throws);
            !d.escaped && |d.calls| >= 2 && d.calls[|d.calls| - 2] == d.calls[|d.calls| - 1] == Invocation(cb, data)
  {
    var r := Subscribe(Subscribe(reg, kind, cb), kind, cb);
    assert ListenersOf(r, kind) == ListenersOf(reg, kind) + [cb] + [cb];
  }

  /** Unsubscribing removes every registration of the callback and keeps
      every other callback as often as it was registered. */
  lemma UnsubscribeCounts<K, C>(reg: Registry<K, C>, kind: K, cb: C, other: C)
    ensures multiset(ListenersOf(Unsubscribe(reg, kind, cb), kind))[other] ==
            if other == cb then 0 else multiset(ListenersOf(reg, kind))[other]
  {
    if kind in reg {
      FilterCounts(l => l != cb, reg[kind], other);
    }
  }

  /** Unsubscribing keeps the order of the remaining callbacks: a callback
      subscribed after the others stays after them, unless it is the one
      removed. */
  lemma UnsubscribeKeepsOrder<K, C>(reg: Registry<K, C>, kind: K, cb: C, later: C)
    ensures ListenersOf(Unsubscribe(Subscribe(reg, kind, later), kind, cb), kind) ==
            ListenersOf(Unsubscribe(reg, kind, cb), kind) + (if later == cb then [] else [later])
  {
    var keep := (l: C) => l != cb;
    FilterAppend(keep, ListenersOf(reg, kind), [later]);
    assert Filter(keep, [later]) == if later == cb then [] else [later];
  }

  /** Subscribing a callback that the type does not have yet and then
      unsubscribing it gives the same dispatch for every message as
      before, although the map may have gained an empty list. */
  lemma SubscribeUnsubscribe<K, C, D>(reg: Registry<K, C>, kind: K, cb: C, m: Message<K, D>, throws: C -> bool)
    requires cb !in ListenersOf(reg, kind)
    ensures Dispatch(Unsubscribe(Subscribe(reg, kind, cb), kind, cb), m, throws) == Dispatch(reg, m, throws)
  {
    var r := Unsubscribe(Subscribe(reg, kind, cb), kind, cb);
    var ls := ListenersOf(reg, kind);
    var keep := (l: C) => l != cb;
    FilterAppend(keep, ls, [cb]);
    assert Filter(keep, [cb]) == [];
    FilterKeepsAll(keep, ls);
    assert ListenersOf(r, kind) == ls;
    DispatchDependsOnListeners(r, reg, m, throws);
  }
}

=== FILE: run_handler.dfy ===
/** The `/code/run` route (backend/routes/code.js) as a pure function of a
    scripted engine run.

    The container engine, the log stream and the timer are replaced by a
    `Script` that says how each engine call turns out, which chunks the log
    stream delivers, and how the race between the stream and the deadline
    settles. The handler returns the response it sends together with the
    calls it makes on the engine and the timer, in order. */
module RunHandler {
  import opened JsText
  import opened Seqs
  import opened Languages
  import opened ContainerConfig
  import opened Sanitizer
  import Validator

  /** How one awaited engine call turns out. */
  datatype Step = Done | Throws(message: string)

  /** How the race between the log stream and the deadline settles: the
      stream ends, the stream reports an error, or the deadline fires
      first. */
  datatype Settle = End | StreamError(message: string) | Timeout

  /** A scripted run of the engine for one request. `chunks` are the log
      chunks delivered before the race settles. */
  datatype Script = Script(
    create: Step,
    start: Step,
    logs: Step,
    chunks: seq<string>,
    settle: Settle,
    stop: Step,
    remove: Step)

  /** The calls the handler makes on the engine and on the timer. */
  datatype Call =
    | CreateContainer(options: CreateOptions)
    | SetTimer(ms: nat)
    | StartContainer
    /** Follow the container's log, standard output and error together. */
    | FollowLogs
    | ClearTimer
    | StopContainer
    | RemoveContainer(force: bool)

  /** The answer to the client. */
  datatype Response =
    /** Status 200, `success: true` and the output. */
    | Executed(output: string)
    /** `success: false` with the caught error's message. */
    | Failed(status: nat, error: string)
    /** The validator's 400 answer. */
    | Invalid(errors: seq<Validator.FieldError>)

  function Status(r: Response): nat {
    match r
    case Executed(_) => 200
    case Failed(status, _) => status
    case Invalid(_) => 400
  }

  predicate Succeeded(r: Response) {
    r.Executed?
  }

  datatype Exchange = Exchange(response: Response, calls: seq<Call>)

  /** The message the timer rejects with. */
  const TimeoutMessage := "Code execution timed out"

  /** The status of a failure: 408 when the message mentions a time-out,
      500 for anything else. */
  function StatusFor(message: string): (status: nat)
    ensures status == 408 <==> exists i :: OccursAt(message, "timed out", i)
    ensures status == 408 || status == 500
  {
    IncludesIffOccurs(message, "timed out");
    if Includes(message, "timed out") then 408 else 500
  }

  /** The timer's own message always yields a time-out status. */
  lemma TimeoutMessageIs408()
    ensures StatusFor(TimeoutMessage) == 408
  {
    assert OccursAt(TimeoutMessage, "timed out", 15);
  }

  /** The error-path cleanup for an existing container: stop it, then
      remove it by force; a failing stop skips the removal. Failures of
      either are logged and dropped. */
  function Cleanup(stop: Step): (calls: seq<Call>)
    ensures 1 <= |calls| <= 2 && calls[0] == StopContainer
    ensures RemoveContainer(true) in calls <==> stop.Done?
    ensures |calls| == 2 <==> stop.Done?
  {
    if stop.Done? then [StopContainer, RemoveContainer(true)] else [StopContainer]
  }

  /** The run reached the end of the stream without any failure. */
  ghost predicate RanToEnd(s: Script) {
    s.create.Done? && s.start.Done? && s.logs.Done? && s.settle.End?
  }

  /** The race was entered: the container was created and started and its
      log stream opened. */
  ghost predicate Raced(s: Script) {
    s.create.Done? && s.start.Done? && s.logs.Done?
  }

  /** The message of the first failure of the run, in the order the
      handler awaits the steps. */
  ghost function FirstFailure(s: Script): string
    requires !RanToEnd(s)
  {
    if s.create.Throws? then s.create.message
    else if s.start.Throws? then s.start.message
    else if s.logs.Throws? then s.logs.message
    else if s.settle.StreamError? then s.settle.message
    else TimeoutMessage
  }

  /** The answer to a validated request. It is a success exactly when
      every step succeeds and the stream ends before the deadline, and then
      carries the trimmed, sanitized concatenation of all chunks. Otherwise
      it carries the message of the first failure and status 408 or 500 by
      that message. The language and code do not enter: they only shape the
      container. */
  function Answer(s: Script): (r: Response)
    ensures Succeeded(r) <==> RanToEnd(s)
    ensures !r.Invalid?
    ensures Succeeded(r) ==> r.output == Trim(Sanitize(Flatten(s.chunks)))
    ensures r.Failed? ==>
              && r.error == FirstFailure(s)
              && (r.status == 408 <==> exists i :: OccursAt(r.error, "timed out", i))
              && (r.status == 408 || r.status == 500)
  {
    if s.create.Throws? then Failed(StatusFor(s.create.message), s.create.message)
    else if s.start.Throws? then Failed(StatusFor(s.start.message), s.start.message)
    else if s.logs.Throws? then Failed(StatusFor(s.logs.message), s.logs.message)
    else match s.settle
      case End => Executed(Trim(Accumulate(s.chunks)))
      case StreamError(message) => Failed(StatusFor(message), message)
      case Timeout => Failed(StatusFor(TimeoutMessage), TimeoutMessage)
  }

  /** The calls made on the engine and the timer, in order: create; arm the
      timer; start; follow the log; clear the timer once the race settles.
      A failure at any step after the creation jumps to the cleanup, so the
      remaining steps are skipped; a failed creation has nothing to clean
      up. */
  function Trace(options: CreateOptions, s: Script): (calls: seq<Call>)
    ensures 1 <= |calls| <= 7 && calls[0] == CreateContainer(options)
    ensures s.create.Done? ==> |calls| >= 3 && calls[..3] == [CreateContainer(options), SetTimer(5000), StartContainer]
    ensures RanToEnd(s) ==> calls[|calls| - 1] == ClearTimer
    ensures RanToEnd(s) ==> calls == [CreateContainer(options), SetTimer(5000), StartContainer, FollowLogs, ClearTimer]
    ensures FollowLogs in calls <==> s.create.Done? && s.start.Done?
    ensures forall i, j :: 0 <= i < j < |calls| ==> calls[i] != calls[j]
  {
    var started := [CreateContainer(options), SetTimer(Validator.TimeoutMs), StartContainer];
    if s.create.Throws? then [CreateContainer(options)]
    else if s.start.Throws? then started + Cleanup(s.stop)
    else if s.logs.Throws? then started + [FollowLogs] + Cleanup(s.stop)
    else if s.settle.End? then started + [FollowLogs, ClearTimer]
    else started + [FollowLogs, ClearTimer] + Cleanup(s.stop)
  }

  /** The handler for a validated request: its answer and its calls. The
      code reaches the container verbatim, as the last argument of the
      language's interpreter in the language's image. */
  function Handle(lang: Language, code: string, s: Script): (x: Exchange)
    ensures Succeeded(x.response) <==> RanToEnd(s)
    ensures |x.calls| > 0 && x.calls[0].CreateContainer?
    ensures x.calls[0].options.image == Image(lang) && x.calls[0].options.cmd == Interpreter(lang) + [code]
  {
    Exchange(Answer(s), Trace(Options(lang, code), s))
  }

  /** A deadline that fires before the stream ends always gives 408 with
      the timer's message. */
  lemma TimeoutAnswers408(s: Script)
    requires Raced(s) && s.settle.Timeout?
    ensures Answer(s) == Failed(408, TimeoutMessage)
  {
    TimeoutMessageIs408();
  }

  /** A log stream whose content, once sanitized, is one trimmed line and
      a line feed: the client gets the line without its line end, however
      the stream was cut into chunks. */
  lemma PrintedLineAnswered(s: Script, line: string)
    requires RanToEnd(s) && Sanitize(Flatten(s.chunks)) == line + "\n"
    requires IsTrimmed(line)
    ensures Answer(s) == Executed(line)
  {
    var text := line + "\n";
    assert text == [] + line + "\n";
    TrimUnique(text, [], line, "\n");
  }

  /** The container is created once, first, with the given options; when
      creation fails nothing else is called. */
  lemma CreatesOnce(options: CreateOptions, s: Script)
    ensures var calls := Trace(options, s);
            && |calls| > 0 && calls[0] == CreateContainer(options)
            && (forall i :: 0 < i < |calls| ==> !calls[i].CreateContainer?)
            && (s.create.Throws? <==> calls == [CreateContainer(options)])
  {
  }

  /** After a failure with an existing container, the last calls are a
      stop and then, unless stopping failed, a forced removal; a success
      calls neither, relying on the container removing itself; a failed
      creation calls neither, there being nothing to clean up. */
  lemma CleanupOrder(options: CreateOptions, s: Script)
    ensures var calls := Trace(options, s);
            && (StopContainer in calls <==> !RanToEnd(s) && s.create.Done?)
            && (RemoveContainer(true) in calls <==> !RanToEnd(s) && s.create.Done? && s.stop.Done?)
            && (!RanToEnd(s) && s.create.Done? && s.stop.Done? ==>
                  |calls| >= 2 && calls[|calls| - 2..] == [StopContainer, RemoveContainer(true)])
            && (!RanToEnd(s) && s.create.Done? && s.stop.Throws? ==>
                  calls[|calls| - 1] == StopContainer && RemoveContainer(true) !in calls)
            && (forall c :: c in calls && c.RemoveContainer? ==> c == RemoveContainer(true))
  {
  }

  /** The timer is armed once a container exists and cleared exactly when
      the race was entered, on success, stream error and deadline alike.
      When start or the log request fails it stays armed. */
  lemma TimerLifecycle(options: CreateOptions, s: Script)
    ensures var calls := Trace(options, s);
            && (SetTimer(Validator.TimeoutMs) in calls <==> s.create.Done?)
            && (ClearTimer in calls <==> Raced(s))
  {
  }

  /** Failures of the cleanup calls never change the answer. */
  lemma CleanupFailuresInvisible(s: Script, stop: Step, remove: Step)
    ensures Answer(s.(stop := stop, remove := remove)) == Answer(s)
  {
  }

  /** The whole route: the validator runs first; a refused request gets its
      400 answer without any call on the engine, an accepted one runs its
      own code in a container for its own language. */
  function Serve(req: Validator.Request, s: Script): (x: Exchange)
    ensures x.response.Invalid? <==> Validator.Validate(req).Respond?
    ensures x.response.Invalid? ==>
              && x.calls == []
              && Status(x.response) == 400
              && x.response.errors == Validator.ValidateCode(req)
    ensures !x.response.Invalid? ==>
              && req.language.Text? && IsSupported(req.language.value)
              && req.code.Text?
              && x.response == Answer(s)
              && |x.calls| > 0
              && x.calls[0] == CreateContainer(Options(FromName(req.language.value), req.code.value))
  {
    match Validator.Validate(req)
    case Respond(_, body) => Exchange(Invalid(body.errors), [])
    case Next =>
      Validator.AcceptedRequestShape(req);
      Handle(FromName(req.language.value), req.code.value, s)
  }
}

=== FILE: sanitizer.dfy ===
/** The output sanitizer of the `/code/run` handler
    (backend/routes/code.js): every chunk of the container's log stream has
    its control characters U+0000-U+0008 and U+000B-U+001F deleted before
    it is appended to the output. Tab and line feed survive; carriage
    return, vertical tab, form feed and escape do not. */
module Sanitizer {
  import opened Seqs

  /** A character the sanitizer deletes. */
  predicate IsStripped(c: char) {
    c <= '\U{8}' || ('\U{B}' <= c <= '\U{1F}')
  }

  predicate IsKept(c: char) {
    !IsStripped(c)
  }

  /** The chunk with every stripped character deleted and every other
      character kept, in order. */
  function Sanitize(chunk: string): (r: string)
    ensures |r| <= |chunk|
    ensures forall i :: 0 <= i < |r| ==> !IsStripped(r[i])
  {
    Filter(IsKept, chunk)
  }

  /** Sanitizing deletes exactly the stripped characters: every other
      character keeps its number of occurrences, every stripped one is
      gone. */
  lemma SanitizeCounts(chunk: string, c: char)
    ensures multiset(Sanitize(chunk))[c] == if IsStripped(c) then 0 else multiset(chunk)[c]
  {
    FilterCounts(IsKept, chunk, c);
  }

  /** On a single character the sanitizer deletes it or keeps it. Together
      with SanitizeAppend this pins the sanitizer down completely, order
      included. */
  lemma SanitizeChar(c: char)
    ensures Sanitize([c]) == if IsStripped(c) then [] else [c]
  {
    assert [c][1..] == [];
  }

  /** Text without stripped characters is left unchanged. */
  lemma SanitizeKeepsClean(s: string)
    requires forall i :: 0 <= i < |s| ==> !IsStripped(s[i])
    ensures Sanitize(s) == s
  {
    FilterKeepsAll(IsKept, s);
  }

  /** Deleting one character inside a text: a stripped character leaves
      no trace, whatever surrounds it. */
  lemma SanitizeAround(x: string, c: char, y: string)
    ensures Sanitize(x + [c] + y) == Sanitize(x) + (if IsStripped(c) then [] else [c]) + Sanitize(y)
  {
    SanitizeAppend(x + [c], y);
    SanitizeAppend(x, [c]);
    SanitizeChar(c);
  }

  /** Tab and line feed are kept while a carriage return is dropped, so
      CR LF line ends reach the client as LF. */
  lemma CarriageReturnDropped(a: string, b: string)
    requires forall i :: 0 <= i < |a| ==> !IsStripped(a[i])
    requires forall i :: 0 <= i < |b| ==> !IsStripped(b[i])
    ensures Sanitize(a + ['\t', '\r', '\n'] + b) == a + ['\t', '\n'] + b
  {
    var lfb := ['\n'] + b;
    assert Sanitize(lfb) == lfb by {
      assert forall i :: 0 <= i < |lfb| ==> !IsStripped(lfb[i]);
      SanitizeKeepsClean(lfb);
    }
    var at := a + ['\t'];
    assert Sanitize(at) == at by {
      assert forall i :: 0 <= i < |at| ==> !IsStripped(at[i]);
      SanitizeKeepsClean(at);
    }
    SanitizeAround(at, '\r', lfb);
    assert a + ['\t', '\r', '\n'] + b == at + ['\r'] + lfb;
    assert a + ['\t', '\n'] + b == at + lfb;
  }

  /** Sanitizing the concatenation of two chunks is the same as sanitizing
      each chunk, so it does not matter where the stream is cut into
      chunks. */
  lemma SanitizeAppend(a: string, b: string)
    ensures Sanitize(a + b) == Sanitize(a) + Sanitize(b)
  {
    FilterAppend(IsKept, a, b);
  }

  /** Sanitized text passes through the sanitizer unchanged. */
  lemma SanitizeIdempotent(chunk: string)
    ensures Sanitize(Sanitize(chunk)) == Sanitize(chunk)
  {
    FilterIdempotent(IsKept, chunk);
  }

  /** The handler's output buffer after the given chunks: each chunk is
      sanitized as it arrives and appended, which is the same as sanitizing
      the whole stream at once. */
  function Accumulate(chunks: seq<string>): (out: string)
    ensures out == Sanitize(Flatten(chunks))
  {
    if |chunks| == 0 then ""
    else
      SanitizeAppend(Flatten(chunks[..|chunks| - 1]), chunks[|chunks| - 1]);
      Accumulate(chunks[..|chunks| - 1]) + Sanitize(chunks[|chunks| - 1])
  }
}

=== FILE: seqs.dfy ===
/** Generic sequence operations shared by the model: the order-preserving
    filter that JavaScript's Array.prototype.filter and a global regular
    expression replacement by "" both compute, and the flattening of a list
    of chunks into one sequence. */
module Seqs {

  /** The elements of `xs` that satisfy `p`, in their original order. */
  function Filter<T>(p: T -> bool, xs: seq<T>): (r: seq<T>)
    ensures |r| <= |xs|
    ensures forall i :: 0 <= i < |r| ==> r[i] in xs && p(r[i])
    ensures forall i :: 0 <= i < |xs| && p(xs[i]) ==> xs[i] in r
  {
    if xs == [] then []
    else (if p(xs[0]) then [xs[0]] else []) + Filter(p, xs[1..])
  }

  /** All chunks joined end to end, in order. */
  function Flatten<T>(xss: seq<seq<T>>): seq<T>
  {
    if |xss| == 0 then [] else Flatten(xss[..|xss| - 1]) + xss[|xss| - 1]
  }

  /** Filtering distributes over concatenation: filtering a whole sequence is
      the same as filtering its two parts separately. */
  lemma {:induction false} FilterAppend<T>(p: T -> bool, xs: seq<T>, ys: seq<T>)
    ensures Filter(p, xs + ys) == Filter(p, xs) + Filter(p, ys)
  {
    if xs == [] {
      assert xs + ys == ys;
    } else {
      assert (xs + ys)[0] == xs[0];
      assert (xs + ys)[1..] == xs[1..] + ys;
      FilterAppend(p, xs[1..], ys);
    }
  }

  /** A sequence whose every element satisfies `p` passes through unchanged. */
  lemma {:induction false} FilterKeepsAll<T>(p: T -> bool, xs: seq<T>)
    requires forall i :: 0 <= i < |xs| ==> p(xs[i])
    ensures Filter(p, xs) == xs
  {
    if xs != [] {
      FilterKeepsAll(p, xs[1..]);
    }
  }

  /** Filtering twice with the same predicate changes nothing further. */
  lemma FilterIdempotent<T>(p: T -> bool, xs: seq<T>)
    ensures Filter(p, Filter(p, xs)) == Filter(p, xs)
  {
    var r := Filter(p, xs);
    FilterKeepsAll(p, r);
  }

  /** The filter keeps every occurrence of a satisfying element and drops
      every occurrence of the others: it changes element counts only by
      removing the rejected ones. */
  lemma {:induction false} FilterCounts<T>(p: T -> bool, xs: seq<T>, x: T)
    ensures multiset(Filter(p, xs))[x] == if p(x) then multiset(xs)[x] else 0
  {
    if xs != [] {
      FilterCounts(p, xs[1..], x);
      assert xs == [xs[0]] + xs[1..];
      assert multiset(xs) == multiset([xs[0]]) + multiset(xs[1..]);
    }
  }

  /** The filter returns the whole input exactly when every element satisfies
      the predicate; otherwise it is strictly shorter. */
  lemma {:induction false} FilterLengthExact<T>(p: T -> bool, xs: seq<T>)
    ensures |Filter(p, xs)| == |xs| <==> forall i :: 0 <= i < |xs| ==> p(xs[i])
  {
    if xs != [] {
      FilterLengthExact(p, xs[1..]);
      if p(xs[0]) {
        assert forall i :: 1 <= i < |xs| ==> xs[i] == xs[1..][i - 1];
      }
    }
  }

  /** The positions of `xs` whose element satisfies `p`. */
  ghost function MatchingPositions<T>(p: T -> bool, xs: seq<T>): set<nat> {
    set i: nat | i < |xs| && p(xs[i])
  }

  /** Appending one element adds its position to the matching positions
      exactly when it satisfies the predicate. */
  lemma MatchingPositionsSnoc<T>(p: T -> bool, xs: seq<T>, x: T)
    ensures MatchingPositions(p, xs + [x]) ==
            MatchingPositions(p, xs) + (if p(x) then {|xs|} else {})
  {
    var ys := xs + [x];
    forall i: nat | i < |xs|
      ensures ys[i] == xs[i]
    {
    }
  }

  /** The length of the filtered sequence is the number of positions whose
      element satisfies the predicate. */
  lemma {:induction false} FilterLengthIsMatchCount<T>(p: T -> bool, xs: seq<T>)
    ensures |Filter(p, xs)| == |MatchingPositions(p, xs)|
  {
    if |xs| > 0 {
      var n := |xs| - 1;
      var front := xs[..n];
      FilterLengthIsMatchCount(p, front);
      assert front + [xs[n]] == xs;
      FilterAppend(p, front, [xs[n]]);
      assert [xs[n]][1..] == [];
      MatchingPositionsSnoc(p, front, xs[n]);
      assert n !in MatchingPositions(p, front);
    }
  }
}

=== FILE: validator.dfy ===
/** The request validation of the `/code/run` endpoint
    (backend/middleware/validator.js): the check chain on the `language` and
    `code` fields of the JSON body, and the middleware that turns a failed
    check into a 400 response. */
module Validator {
  import opened Languages
  import opened BlockedPatterns
  import opened JsText

  /** The longest accepted code, in characters. */
  const MaxCodeLength: nat := 1000

  /** The execution deadline, in milliseconds; the execution handler imports
      it from here. */
  const TimeoutMs: nat := 5000

  /** A field of the JSON request body as the validator sees it: absent,
      a string, or some other JSON value (number, boolean, null, object,
      array). */
  datatype Field = Missing | Text(value: string) | NonText

  datatype Request = Request(language: Field, code: Field)

  /** One entry of the error list: the body field it concerns and the
      message of the check that failed. */
  datatype FieldError = FieldError(path: string, msg: string)

  const LanguageRequired := "Language is required"
  const LanguageNotString := "Language must be a string"
  const UnsupportedLanguage := "Unsupported language"
  const CodeRequired := "Code is required"
  const CodeNotString := "Code must be a string"
  const CodeEmpty := "Code cannot be empty"
  /** The message interpolates MaxCodeLength. */
  const CodeTooLong := "Code exceeds maximum length of 1000 characters"
  const CodeHarmful := "Code contains potentially harmful patterns"

  /** What the validator accepts, stated without the check chain: a supported
      language name, and a non-empty code string of at most MaxCodeLength
      characters that no blocked regular expression matches. */
  ghost predicate IsAcceptable(req: Request) {
    && req.language.Text?
    && IsSupported(req.language.value)
    && req.code.Text?
    && 0 < |req.code.value| <= MaxCodeLength
    && !RegexHarmful(req.code.value)
  }

  /** The first failing check of the `language` chain: exists, is a string,
      is one of the supported names. */
  function LanguageErrors(f: Field): seq<FieldError> {
    match f
    case Missing => [FieldError("language", LanguageRequired)]
    case NonText => [FieldError("language", LanguageNotString)]
    case Text(name) =>
      if IsSupported(name) then [] else [FieldError("language", UnsupportedLanguage)]
  }

  /** The first failing check of the `code` chain: exists, is a string, is
      not empty, is at most MaxCodeLength long, matches no blocked
      pattern. */
  function CodeErrors(f: Field): seq<FieldError> {
    match f
    case Missing => [FieldError("code", CodeRequired)]
    case NonText => [FieldError("code", CodeNotString)]
    case Text(code) =>
      if |code| == 0 then [FieldError("code", CodeEmpty)]
      else if |code| > MaxCodeLength then [FieldError("code", CodeTooLong)]
      else if IsHarmful(code) then [FieldError("code", CodeHarmful)]
      else []
  }

  /** The error list the two chains leave on the request: the `language`
      errors first, then the `code` errors. It is empty exactly for an
      acceptable request, and its first entry names the first check that
      failed, language checks before code checks. */
  function ValidateCode(req: Request): (errs: seq<FieldError>)
    ensures |errs| == 0 <==> IsAcceptable(req)
    ensures req.language == Missing ==> |errs| > 0 && errs[0].msg == LanguageRequired
    ensures req.language == NonText ==> |errs| > 0 && errs[0].msg == LanguageNotString
    ensures req.language.Text? && !IsSupported(req.language.value) ==>
              |errs| > 0 && errs[0].msg == UnsupportedLanguage
    ensures req.language.Text? && IsSupported(req.language.value) ==>
              && (req.code == Missing ==> |errs| > 0 && errs[0].msg == CodeRequired)
              && (req.code == NonText ==> |errs| > 0 && errs[0].msg == CodeNotString)
              && (req.code == Text("") ==> |errs| > 0 && errs[0].msg == CodeEmpty)
              && (req.code.Text? && |req.code.value| > MaxCodeLength ==>
                    |errs| > 0 && errs[0].msg == CodeTooLong)
              && ((req.code.Text? && 0 < |req.code.value| <= MaxCodeLength &&
                   RegexHarmful(req.code.value)) ==> |errs| > 0 && errs[0].msg == CodeHarmful)
  {
    CodeVerdictIsRegexVerdict(req.code);
    LanguageErrors(req.language) + CodeErrors(req.code)
  }

  lemma CodeVerdictIsRegexVerdict(f: Field)
    ensures f.Text? ==> (IsHarmful(f.value) <==> RegexHarmful(f.value))
  {
    if f.Text? {
      HarmfulIffRegex(f.value);
    }
  }

  /** The body of a 400 answer. */
  datatype ErrorBody = ErrorBody(success: bool, errors: seq<FieldError>)

  /** What the middleware does: hand the request on, or answer it. */
  datatype Decision = Next | Respond(status: nat, body: ErrorBody)

  /** The `validate` middleware: a request with errors is answered with
      status 400, `success: false` and the whole error list; any other is
      passed on and nothing is written. */
  function Validate(req: Request): (d: Decision)
    ensures d.Next? <==> IsAcceptable(req)
    ensures d.Respond? ==>
              && d.status == 400
              && !d.body.success
              && d.body.errors == ValidateCode(req)
              && |d.body.errors| > 0
  {
    var errs := ValidateCode(req);
    if |errs| > 0 then Respond(400, ErrorBody(false, errs)) else Next
  }

  /** A request that passes carries a supported language name and a code
      string within the limits. */
  lemma AcceptedRequestShape(req: Request)
    requires Validate(req).Next?
    ensures req.language.Text? && IsSupported(req.language.value)
    ensures req.code.Text? && 0 < |req.code.value| <= MaxCodeLength
    ensures !IsHarmful(req.code.value)
  {
    HarmfulIffRegex(req.code.value);
  }

  /** A string of `n` copies of `x`, as JavaScript's `"x".repeat(n)`. */
  function Repeat(c: char, n: nat): (s: string)
    ensures |s| == n && forall k :: 0 <= k < n ==> s[k] == c
  {
    seq(n, _ => c)
  }

  /** No blocked pattern matches a run of `x`: each pattern starts with one
      of the letters p, r, i, o, e. */
  lemma RunOfXIsHarmless(n: nat)
    ensures !IsHarmful(Repeat('x', n))
  {
    var s := Repeat('x', n);
    forall k, i | 0 <= k < |Blocked| && 0 <= i <= |s|
      ensures !MatchesAt(Blocked[k], s, i)
    {
      var lit := match Blocked[k]
        case EnvAccess => "process.env"
        case Call(name) => name
        case ModuleImport => "import";
      if i + |lit| <= |s| {
        assert AsciiLower(s[i + 0]) == 'x' != lit[0];
      }
    }
  }

  /** The length limit is inclusive: with a supported language, 1000
      characters of `x` pass, and 1001 are refused with the length message
      (backend/tests/validator.test.js). */
  lemma LengthLimitBoundary()
    ensures Validate(Request(Text("python"), Text(Repeat('x', 1000)))).Next?
    ensures ValidateCode(Request(Text("python"), Text(Repeat('x', 1001))))[0].msg == CodeTooLong
  {
    RunOfXIsHarmless(1000);
    HarmfulIffRegex(Repeat('x', 1000));
  }
}
